=== FILE: README.md ===
# road-collisions-uk: collision and vehicle records in Dafny

This project models the record layer of the `road_collisions_uk` package. It covers the
collision records, the `Collisions` container, and the vehicle records with their container.

- A **collision** (`Collision`) is a mapping from field names to raw values. Named accessors
  read it: `id`, `geo`, `date`, `timestamp`, `year`, and about seventy plain fields.
  `Collision.parse` builds one from a dict, and `serialize` flattens it back to a dict.
- A **collision collection** (`Collisions`) is loaded from `.tgz` archives (`from_file`,
  `from_dir`) and narrowed with `filter(**criteria)`. `filter` keeps the collisions whose
  attributes equal every criterion.
- A **vehicle** (`Vehicle`) is a fixed record of 24 slots. It is built from a dict
  (`Vehicle(**d)`) and serialized back to one.
- **`Vehicles`** is an ordered list of vehicles with indexing, `append`, `extend`,
  `serialize` and `parse`.

Modules:

| module | file | models |
|---|---|---|
| `Values` | values.dfy | raw values, records, errors, `Result`/`Option`; evaluation of list comprehensions and dict displays that may raise |
| `Clock` | clock.dfy | `datetime.strptime(text, '%d/%m/%Y %I:%M')` and its inverse printer |
| `Paths` | paths.dfy | the `.tgz` extension test (`os.path.splitext` on POSIX paths) and the rows a directory load gathers |
| `CollisionRecord` | collision_record.dfy | `Collision`: parse, accessors, timestamp, serialize, `getattr` |
| `CollisionList` | collision_list.dfy | `Collisions.filter`, `from_file`, `from_dir` |
| `VehicleRecord` | vehicle_record.dfy | `Vehicle`: construction from a dict and serialization |
| `VehicleList` | vehicle_list.dfy | `Vehicles`: indexing, append/extend, serialize, parse |

Every Python exception is a `Failure` with an `Error` value:

| Python | `Error` |
|---|---|
| `KeyError` from a missing field or slot | `MissingField(name)` |
| `AttributeError` from `getattr` | `NoAttribute(name)` |
| the bare `Exception()` for a path that is not `.tgz` | `UnsupportedFormat` |
| `NotImplementedError` from `Vehicles.parse` | `UnsupportedShape` |
| any `ValueError` from `strptime`, whatever its message, tagged with the text that was parsed | `BadTimestamp(text)` |
| `IndexError` | `IndexOutOfRange(i)` |
| `TypeError` from a `self` keyword in `Collision(**d)`, `Vehicle(**d)` or `filter(**criteria)` | `DuplicateArgument("self")` |
| whatever `RawCollision.parse` raises for a dict with a `data` key | `NormaliserFailed(reason)` |

Behaviour of the code that a reader might not expect, which the model follows:

- **`Collision.parse` on other input.** Given something that is neither a collision nor a dict,
  it falls through both tests and returns `None`. It does not raise.
- **Round trip loses the identifier and coordinates.** `serialize` writes them under `id`, `lat`
  and `lng`. Parsing that dict back keeps those keys as they are, so `id` and `geo`, which read
  `accident_index`, `latitude` and `longitude`, raise on the result. Every other copied field
  and the year do survive the round trip.
- **Filtering on an unknown name.** Filtering a non-empty collection on a name that is not an
  attribute raises `AttributeError` from `getattr` on the first collision, not a missing-field
  error. An empty collection comes back empty, with no lookup made. A criterion named `self` is
  different: it clashes with `filter`'s own `self` parameter and raises a TypeError at the call,
  before any lookup, even on an empty collection.
- **The `%I` directive.** The timestamp format uses `%I`, a 12-hour clock with no a.m./p.m.
  marker. So a time "13:05" fails to parse, and "12:05" is read as 00:05.
- **A `self` key.** `Collision(**d)` and `Vehicle(**d)` pass the dict as keyword arguments to an
  `__init__` whose first parameter is `self`. A dict with the key `self` therefore raises a
  TypeError before any field is read.

## Model

| member | source | states |
|---|---|---|
| CollisionRecord.Build | src/road_collisions_uk/models/collision.py:103-105 | `Collision(**d)` keeps `d` as the backing map, and raises a TypeError exactly when `d` has a `self` key |
| CollisionRecord.ParseDict | src/road_collisions_uk/models/collision.py:114-125 | a dict with a `data` key becomes the collision of whatever the raw normaliser returns, and its failure escapes; any other dict becomes the backing map unchanged; either map with a `self` key raises a TypeError |
| CollisionRecord.Parse | src/road_collisions_uk/models/collision.py:110-125 | a collision comes back as the same collision; a dict is parsed as above, succeeding exactly when that parse does and failing with its error; any other shape yields `None` |
| CollisionRecord.ParseIdempotent | src/road_collisions_uk/models/collision.py:111-112 | parsing the collision that `parse` produced gives that same collision again |
| CollisionRecord.Field | src/road_collisions_uk/models/collision.py:236-238 | a plain accessor succeeds exactly when the field is stored, returns the stored value, and otherwise raises a KeyError naming the field |
| CollisionRecord.Id | src/road_collisions_uk/models/collision.py:127-129 | `id` is the stored `accident_index`, or a KeyError for it |
| CollisionRecord.Geo | src/road_collisions_uk/models/collision.py:213-215 | `geo` is the pair (latitude, longitude); a missing latitude is reported before a missing longitude |
| CollisionRecord.TimestampText | src/road_collisions_uk/models/collision.py:219-220 | the text handed to strptime is the rendered date, a space, and the rendered time; a missing `date` is reported before a missing `time` |
| CollisionRecord.Timestamp | src/road_collisions_uk/models/collision.py:217-222 | `timestamp` succeeds exactly when both fields are present and the text parses; the result is a valid calendar day with an hour below 12; a failure is the KeyError of the missing field, or else strptime's ValueError, modelled as `BadTimestamp` of the text whatever Python's message says |
| CollisionRecord.Year | src/road_collisions_uk/models/collision.py:224-226 | `year` succeeds exactly when `timestamp` does; it is the timestamp's year, between 1 and 9999 |
| CollisionRecord.YearReadsDateTime | src/road_collisions_uk/models/collision.py:217-226 | two collisions that agree on `date` and `time` have the same year outcome, whatever else they store |
| CollisionRecord.YearIsDateYear | src/road_collisions_uk/models/collision.py:217-226 | for a date "d/m/yyyy" and time "h:mi" written in digits, a year that resolves is the number yyyy |
| CollisionRecord.FieldValues | src/road_collisions_uk/models/collision.py:137-206 | the copied fields succeed exactly when all of them are stored; the map holds exactly those names with their stored values; otherwise the first missing name, in display order, is the KeyError |
| CollisionRecord.SerializeOver | src/road_collisions_uk/models/collision.py:131-207 | for any list of copied names: success exactly when every needed field is stored and the year resolves; the keys are the names plus `id`, `lat`, `lng` and `year`, each holding its source value |
| CollisionRecord.Serialize | src/road_collisions_uk/models/collision.py:131-207 | the same facts for the seventy names `serialize` copies |
| CollisionRecord.GetAttr | src/road_collisions_uk/models/collision.py:83 | `getattr(c, name)` raises AttributeError exactly for names that are not attributes; a plain accessor resolves exactly when its field is stored; a plain accessor's failure is the KeyError naming it; `id`, `geo`, `timestamp` and `year` give their accessor's value or raise its error; `data` is the backing map |
| CollisionRecord.UnknownAttributeFails | src/road_collisions_uk/models/collision.py:83 | a name outside the attribute set always raises AttributeError |
| CollisionRecord.RoundTripOver | src/road_collisions_uk/models/collision.py:121-125 | parsing a serialized dict, for any copied list that includes `date` and `time`, succeeds; every copied field and the year read back equal; `id` and `geo` raise |
| CollisionRecord.SerializeParseRoundTrip | src/road_collisions_uk/models/collision.py:121-125 | `parse(serialize(c))` keeps all seventy copied fields and the year, and loses `id` and `geo` |
| Clock.ParseClock | src/road_collisions_uk/models/collision.py:219-222 | strptime with '%d/%m/%Y %I:%M' either yields a valid day and a time before noon, or fails with a ValueError, modelled as `BadTimestamp` of the text whatever its message |
| Clock.ParsedYear | src/road_collisions_uk/models/collision.py:219-226 | a date "d/m/yyyy" and a time "h:mi" written in digits that parse give the year yyyy |
| Clock.ScanLayout | src/road_collisions_uk/models/collision.py:221 | for digit runs laid out as d/m/yyyy h:mi, the match succeeds exactly when each run is a valid token, and reads each run's number into its field |
| Clock.FormatRoundTrip | src/road_collisions_uk/models/collision.py:219-222 | every moment the format can express parses back to itself from its zero-padded text |
| Clock.TwentyFourHourTimeRejected | src/road_collisions_uk/models/collision.py:221 | on any valid date, a time whose hour is 00 or above 12 fails to parse |
| Clock.NoonReadAsMidnight | src/road_collisions_uk/models/collision.py:221 | hour 12 with no a.m./p.m. marker is read as hour 0 |
| Clock.ExampleTimestamp | src/road_collisions_uk/models/collision.py:219-226 | "31/12/2020 11:45" parses to 31 December 2020, 11:45, so its year is 2020 |
| Paths.Extension | src/road_collisions_uk/models/collision.py:26 | the extension is empty or a final piece of the path that starts with '.' and holds no other '.' or '/' |
| Paths.IsArchive | src/road_collisions_uk/models/collision.py:26-27 | a path passes the test exactly when it ends in ".tgz" and its last component has a character other than '.' before that ending |
| Paths.StemWithSuffixIsArchive | src/road_collisions_uk/models/collision.py:26-27 | a file stem followed by ".tgz" passes the test |
| Paths.OtherFormatsRejected | src/road_collisions_uk/models/collision.py:40-41 | "data.zip", "data.TGZ" and "data.tgz/" fail the test, so `from_file` raises on them |
| Paths.HiddenFilesRejected | src/road_collisions_uk/models/collision.py:64-65 | ".tgz" and "resources/.tgz" are hidden files with no extension, so the test fails on them |
| Paths.GatherSplit | src/road_collisions_uk/models/collision.py:63-70 | the rows gathered from a path list are those of any first part followed by those of the rest |
| Paths.GatherSkips | src/road_collisions_uk/models/collision.py:64-65 | a path that is not kept adds nothing: removing it from the list changes no gathered row |
| Paths.GatherNoneKept | src/road_collisions_uk/models/collision.py:63-65 | when no path is kept, nothing is gathered |
| CollisionList.Compare | src/road_collisions_uk/models/collision.py:83 | one criterion holds exactly when the attribute resolves to the wanted value; a lookup that raises escapes |
| CollisionList.Matches | src/road_collisions_uk/models/collision.py:81-85 | every lookup is made; the outcome is "all criteria hold", or the error of the first criterion whose lookup raises |
| CollisionList.Filter | src/road_collisions_uk/models/collision.py:74-90 | a criterion named `self` raises a TypeError at the call, whatever the collection; otherwise it succeeds exactly when every lookup on every collision succeeds; keeps no more collisions than it was given, and only ones that match; otherwise the first collision whose test raises supplies the error |
| CollisionList.FilterExact | src/road_collisions_uk/models/collision.py:80-86 | the result is exactly the matching collisions, taken at strictly increasing positions of the source, with every matching position taken |
| CollisionList.FilterNoCriteria | src/road_collisions_uk/models/collision.py:81-84 | with no criteria, every collection is returned unchanged, in order |
| CollisionList.FilterIdempotent | src/road_collisions_uk/models/collision.py:80-86 | filtering the result again with the same criteria changes nothing |
| CollisionList.FilterUnknownAttribute | src/road_collisions_uk/models/collision.py:74-83 | filtering a non-empty collection on a name that is not an attribute raises AttributeError, or the TypeError of the call when the name is `self` |
| CollisionList.FromFile | src/road_collisions_uk/models/collision.py:23-54 | a path that is not ".tgz" raises before any row is read; otherwise the result is the rows parsed one by one, in order |
| CollisionList.FromFileOneRecordPerRow | src/road_collisions_uk/models/collision.py:43-52 | loading succeeds exactly when every row parses, giving one collision per row in row order; otherwise it fails with the first bad row's error |
| CollisionList.FromDir | src/road_collisions_uk/models/collision.py:57-72 | the result is loading, as one sequence, the rows of the ".tgz" paths in discovery order; the first bad row stops everything |
| VehicleRecord.SlotsDistinct | src/road_collisions_uk/models/vehicle.py:53-78 | there are 24 slot names and no name occurs twice |
| VehicleRecord.FromMapOver | src/road_collisions_uk/models/vehicle.py:80-105 | for any 24 slot names read in order: a `self` key raises a TypeError; otherwise success exactly when every slot is a key; each field is the value under its slot; otherwise the first missing slot is the KeyError |
| VehicleRecord.FromMap | src/road_collisions_uk/models/vehicle.py:80-105 | `Vehicle(**d)` raises a TypeError when `d` has a `self` key; otherwise it succeeds exactly when every slot is a key of `d`; each field is `d`'s value for its slot; otherwise the KeyError names the first missing slot in declaration order |
| VehicleRecord.ExtraKeysIgnored | src/road_collisions_uk/models/vehicle.py:80-105 | two dicts that agree on the slots and on having a `self` key build the same vehicle, or fail the same way, whatever other keys they carry |
| VehicleRecord.Serialize | src/road_collisions_uk/models/vehicle.py:107-133 | the dict has exactly the slot names as keys, each holding its field |
| VehicleRecord.FromSerialized | src/road_collisions_uk/models/vehicle.py:80-133 | building from a vehicle's serialization gives that vehicle back |
| VehicleRecord.SerializeFromMap | src/road_collisions_uk/models/vehicle.py:80-133 | serializing a vehicle built from `d` gives `d` cut down to the slot names |
| VehicleList.Vehicles.Len | src/road_collisions_uk/models/vehicle.py:12-13 | `len(vehicles)` is the count n for which exactly the indices -n .. n-1 resolve |
| VehicleList.Vehicles.At | src/road_collisions_uk/models/vehicle.py:6-7 | indexing succeeds exactly for -len ≤ i < len and returns the vehicle at i, counted from the end when i is negative; out of range raises IndexError |
| VehicleList.NegativeIndex | src/road_collisions_uk/models/vehicle.py:6-7 | a negative index names the same vehicle as that index plus the length |
| VehicleList.Vehicles.Append | src/road_collisions_uk/models/vehicle.py:15-16 | one more vehicle, found at the old length and at -1; every earlier index keeps its vehicle |
| VehicleList.Vehicles.Extend | src/road_collisions_uk/models/vehicle.py:18-19 | the length grows by the number added; earlier indices keep their vehicles; the new ones follow in their order |
| VehicleList.ExtendIsAppends | src/road_collisions_uk/models/vehicle.py:15-19 | extending by a list plus one vehicle is extending by the list and then appending the vehicle |
| VehicleList.Vehicles.Serialize | src/road_collisions_uk/models/vehicle.py:21-24 | one dict per vehicle, in order, each the vehicle's own serialization |
| VehicleList.Element | src/road_collisions_uk/models/vehicle.py:31-38 | a dict element is built as a vehicle; any other element raises NotImplementedError |
| VehicleList.Parse | src/road_collisions_uk/models/vehicle.py:26-48 | a list gives one vehicle per element in order, or the error of its first bad element; a dict gives a single vehicle, or the KeyError or TypeError its construction raises; anything else raises NotImplementedError |
| VehicleList.NonDictElementRejected | src/road_collisions_uk/models/vehicle.py:37-38 | a list with any element that is not a dict is refused, whatever the other elements are |
| VehicleList.ParseSerialized | src/road_collisions_uk/models/vehicle.py:21-48 | the list of dicts a collection serializes to parses back to the same collection |
| Values.MapEach | src/road_collisions_uk/models/collision.py:44-52 | a loop that parses each element in turn: success exactly when every element parses, giving each element's result at its own position; otherwise the first failing element's error |
| Values.Render | src/road_collisions_uk/models/collision.py:220 | the f-string text of a cell: a string as it is, `None` as "None", an integer as its shortest decimal digits led by '-' exactly when negative |
| Clock.RenderedIntegerReadsBack | src/road_collisions_uk/models/collision.py:220 | the digits an integer cell renders to read back as that integer |
| Values.Select | src/road_collisions_uk/models/collision.py:80-86 | a comprehension with a test that may raise: success exactly when every test succeeds; keeps only passing elements; otherwise the first raising element's error |
| Values.SelectExact | src/road_collisions_uk/models/collision.py:80-86 | what the comprehension keeps is exactly the passing elements, in their original order |
| Values.LookupAll | src/road_collisions_uk/models/vehicle.py:81-105 | keyword lookups in order: all values when every key is present; otherwise a KeyError for the first missing key |
| Values.DictDisplay | src/road_collisions_uk/models/vehicle.py:108-133 | a dict display has exactly the written keys; when no key repeats, each holds the value written beside it |

## Left out

- Reading archives is left out: extracting the tar file, the recursive `glob` and `pandas.read_csv`. The rows an archive yields are a parameter of `CollisionList.FromFile`. In the source they are the CSV files found anywhere under the archive's directory, which can include files extracted there from other archives.
- The directory search of `from_dir`, and the `region` argument that picks its search directory, are left out. The discovered paths are a parameter of `CollisionList.FromDir`, in discovery order, and so is the function from a path to its rows.
- `Collisions.load_all` is left out. It only resolves the package's resource directory and calls `from_dir`.
- The debug log line in `filter` is left out.
- `RawCollision.parse`, the normaliser for dicts with a `data` key, belongs to another package. It is the `Normaliser` parameter of `CollisionRecord.ParseDict`. The `GenericObjects` and `GenericObject` base classes of `Collisions` and `Collision` come from that package too, and their behaviour is not modelled.
- The filter laws take the attribute lookup as a `Getter` parameter. `CollisionRecord.GetAttr` is the lookup a collision actually has, and `CollisionList.FilterUnknownAttribute` applies the laws to it.
- `CollisionRecord.GetAttr`: does not model `getattr` on methods (`serialize`, `parse`) or on attributes inherited from the base classes. Those names are treated as unknown.
- Python's `==` across types is left out. Filter criteria compare values structurally, so `1 == True`, `1 == 1.0` and NaN (which pandas gives for empty cells) are not modelled. Floating-point values are not modelled at all.
- `Clock.ParseClock`: every ValueError becomes `BadTimestamp(text)`. Python's messages differ: only a pattern mismatch quotes the whole text, leftover characters quote only the tail, and a day that does not exist names neither.
- `Clock.ParseClock`: follows CPython's `_strptime` patterns with ASCII digits only. Unicode digits that `\d` also accepts are left out, as is locale handling.
- `Values.Render`: renders strings, integers and `None` only. The f-string spelling of floats is left out.
- In-place mutation is not modelled. `append` and `extend` return a new `Vehicles` value, so aliasing between containers is not modelled.
- `Vehicles.__iter__` and slice indexing are left out. The sequence of items stands for iteration.
- `Vehicle.__slots__` blocking other attributes is left out. A vehicle is a fixed record.
- `CollisionRecord.SerializeOver`: on failure it states only that the error is a missing needed field or the year's error. It does not state which comes first in the dict display's evaluation order.
- `CollisionRecord.Serialize`: on failure it states only that the error is a missing needed field or the year's error. It does not state which comes first in the dict display's evaluation order.
- `Values.DictDisplay`: for a key written twice, it does not state that the last value wins. Every display in the model has distinct keys.
- `Paths.Extension`: models POSIX paths only (`posixpath.splitext`). The Windows path rules are left out.

=== FILE: clock.dfy ===
/**
 * The timestamp behind a collision record: `datetime.strptime(text, '%d/%m/%Y %I:%M')`.
 *
 * CPython compiles that format to the regular expression
 *   (?P<d>3[0-1]|[1-2]\d|0[1-9]|[1-9]| [1-9]) / (?P<m>1[0-2]|0[1-9]|[1-9]) / (?P<Y>\d\d\d\d)
 *   \s+ (?P<I>1[0-2]|0[1-9]|[1-9]| [1-9]) : (?P<M>[0-5]\d|\d)
 * (spaces added here for reading), matches it at the start of the text and rejects any
 * unconverted tail. The ` [1-9]` alternative of `%I` never changes the outcome here: the greedy
 * `\s+` before it has already taken every white-space character, and a match through that
 * alternative is the same match with its space given to `\s+` and the digit read by `[1-9]`.
 * No token contains '/' or ':', and only the day's leading space is white space inside a
 * token, so each token is exactly the text up to the next separator, which is how `Scan` reads
 * it. Without a `%p` directive the 12-hour clock is read as a.m.: "12" means hour 0. The date
 * must then exist in the proleptic Gregorian calendar, year 1 or later.
 */
module Clock {
  import opened Values

  datatype DateTime = DateTime(year: int, month: int, day: int, hour: int, minute: int)

  /** Python's `\s` on text: the characters `str.isspace` accepts. */
  predicate IsSpace(c: char)
  {
    c == ' ' || '\t' <= c <= '\r' || '\U{1C}' <= c <= '\U{1F}' || c == '\U{85}' || c == '\U{A0}'
    || c == '\U{1680}' || '\U{2000}' <= c <= '\U{200A}' || c == '\U{2028}' || c == '\U{2029}'
    || c == '\U{202F}' || c == '\U{205F}' || c == '\U{3000}'
  }

  predicate AllDigits(s: string)
  {
    forall k :: 0 <= k < |s| ==> IsDigit(s[k])
  }

  function DigitValue(c: char): (n: nat)
    requires IsDigit(c)
    ensures n < 10
  {
    c as int - '0' as int
  }

  /** The value of a string of decimal digits. */
  function Number(s: string): nat
    requires AllDigits(s)
  {
    if |s| == 0 then 0 else 10 * Number(s[..|s| - 1]) + DigitValue(s[|s| - 1])
  }

  /** The shortest decimal spelling of `n` reads back as `n`. */
  lemma {:induction false} DecimalNumber(n: nat)
    ensures AllDigits(Decimal(n)) && Number(Decimal(n)) == n
  {
    var s := Decimal(n);
    if n < 10 {
      assert s[..0] == [];
    } else {
      DecimalNumber(n / 10);
      assert s[..|s| - 1] == Decimal(n / 10);
      assert DigitValue(s[|s| - 1]) == n % 10;
    }
  }

  /** An integer cell, rendered as an f-string does, reads back as that integer. */
  lemma RenderedIntegerReadsBack(i: int)
    ensures var s := Render(Int(i));
      var digits := if i < 0 then s[1..] else s;
      AllDigits(digits) && (if i < 0 then -(Number(digits) as int) else Number(digits) as int) == i
  {
    if i < 0 {
      assert Render(Int(i))[1..] == Decimal(-i);
      DecimalNumber(-i);
    } else {
      DecimalNumber(i);
    }
  }

  /** The position of the first `c` in `s`. */
  function IndexOf(s: string, c: char): (r: Option<nat>)
    ensures r.Some? ==> r.value < |s| && s[r.value] == c
    ensures r.Some? ==> forall k :: 0 <= k < r.value ==> s[k] != c
    ensures r.None? ==> forall k :: 0 <= k < |s| ==> s[k] != c
  {
    if |s| == 0 then None
    else if s[0] == c then Some(0)
    else
      match IndexOf(s[1..], c)
      case None => None
      case Some(k) => Some(k + 1)
  }

  /** The length of the white-space run `\s+` would consume at the start of `s`. */
  function SpaceRun(s: string): (n: nat)
    ensures n <= |s|
    ensures forall k :: 0 <= k < n ==> IsSpace(s[k])
    ensures n < |s| ==> !IsSpace(s[n])
  {
    if |s| > 0 && IsSpace(s[0]) then 1 + SpaceRun(s[1..]) else 0
  }

  /** `(?P<d>3[0-1]|[1-2]\d|0[1-9]|[1-9]| [1-9])` matching all of `t`. */
  function DayToken(t: string): (r: Option<int>)
    ensures r.Some? ==> 1 <= r.value <= 31
  {
    if |t| == 1 && IsDigit(t[0]) && t[0] != '0' then Some(DigitValue(t[0]))
    else if |t| == 2 && t[0] == ' ' && IsDigit(t[1]) && t[1] != '0' then Some(DigitValue(t[1]))
    else if |t| == 2 && AllDigits(t) && 1 <= Number(t) <= 31 then Some(Number(t))
    else None
  }

  /** `1[0-2]|0[1-9]|[1-9]`, the pattern of both `%m` and `%I`, matching all of `t`. */
  function UpToTwelveToken(t: string): (r: Option<int>)
    ensures r.Some? ==> 1 <= r.value <= 12
  {
    if |t| == 1 && IsDigit(t[0]) && t[0] != '0' then Some(DigitValue(t[0]))
    else if |t| == 2 && AllDigits(t) && 1 <= Number(t) <= 12 then Some(Number(t))
    else None
  }

  /** `(?P<M>[0-5]\d|\d)` matching all of `t`. */
  function MinuteToken(t: string): (r: Option<int>)
    ensures r.Some? ==> 0 <= r.value <= 59
  {
    if |t| == 1 && IsDigit(t[0]) then Some(DigitValue(t[0]))
    else if |t| == 2 && AllDigits(t) && Number(t) <= 59 then Some(Number(t))
    else None
  }

  /** The hour `%I` stands for when no a.m./p.m. marker is present. */
  function MorningHour(clockHour: int): (h: int)
    requires 1 <= clockHour <= 12
    ensures 0 <= h < 12
  {
    if clockHour == 12 then 0 else clockHour
  }

  /**
   * The regular-expression match, with its fields converted to numbers. It reads the day up
   * to the first '/', then hands over to the month.
   */
  function Scan(s: string): (r: Option<DateTime>)
    ensures r.Some? ==> 1 <= r.value.day <= 31 && 1 <= r.value.month <= 12
    ensures r.Some? ==> 0 <= r.value.hour < 12 && 0 <= r.value.minute < 60
  {
    var i :- IndexOf(s, '/');
    var day :- DayToken(s[..i]);
    ScanMonth(s[i + 1..], day)
  }

  /** The month up to the next '/'. */
  function ScanMonth(s: string, day: int): (r: Option<DateTime>)
    ensures r.Some? ==> r.value.day == day && 1 <= r.value.month <= 12
    ensures r.Some? ==> 0 <= r.value.hour < 12 && 0 <= r.value.minute < 60
  {
    var j :- IndexOf(s, '/');
    var month :- UpToTwelveToken(s[..j]);
    ScanYear(s[j + 1..], day, month)
  }

  /** Four digits of year, then at least one white-space character. */
  function ScanYear(s: string, day: int, month: int): (r: Option<DateTime>)
    ensures r.Some? ==> r.value.day == day && r.value.month == month
    ensures r.Some? ==> 0 <= r.value.hour < 12 && 0 <= r.value.minute < 60
  {
    if |s| < 4 || !AllDigits(s[..4]) then None
    else
      var w := SpaceRun(s[4..]);
      if w == 0 then None else ScanTime(s[4 + w..], day, month, Number(s[..4]))
  }

  /** The hour up to the first ':', and a minute that must end the text. */
  function ScanTime(s: string, day: int, month: int, year: int): (r: Option<DateTime>)
    ensures r.Some? ==> r.value.day == day && r.value.month == month && r.value.year == year
    ensures r.Some? ==> 0 <= r.value.hour < 12 && 0 <= r.value.minute < 60
  {
    var k :- IndexOf(s, ':');
    var hour :- UpToTwelveToken(s[..k]);
    var minute :- MinuteToken(s[k + 1..]);
    Some(DateTime(year, month, day, MorningHour(hour), minute))
  }

  predicate IsLeap(y: int)
  {
    y % 4 == 0 && (y % 100 != 0 || y % 400 == 0)
  }

  function DaysInMonth(y: int, m: int): int
    requires 1 <= m <= 12
  {
    if m == 2 then (if IsLeap(y) then 29 else 28)
    else if m == 4 || m == 6 || m == 9 || m == 11 then 30
    else 31
  }

  /** A day `datetime.date` accepts. */
  predicate ValidDate(dt: DateTime)
  {
    1 <= dt.year <= 9999 && 1 <= dt.month <= 12 && 1 <= dt.day <= DaysInMonth(dt.year, dt.month)
  }

  /** A moment the format can produce: a valid day and a time before noon. */
  predicate ValidClock(dt: DateTime)
  {
    ValidDate(dt) && 0 <= dt.hour < 12 && 0 <= dt.minute < 60
  }

  /** `datetime.strptime(text, '%d/%m/%Y %I:%M')`. */
  function ParseClock(text: string): (r: Result<DateTime>)
    ensures r.Success? ==> ValidClock(r.value)
    ensures r.Failure? ==> r.error == BadTimestamp(text)
  {
    match Scan(text)
    case Some(dt) => if ValidDate(dt) then Success(dt) else Failure(BadTimestamp(text))
    case None => Failure(BadTimestamp(text))
  }

  function Pad2(n: nat): (r: string)
    requires n < 100
  {
    [DigitChar(n / 10), DigitChar(n % 10)]
  }

  function Pad4(n: nat): (r: string)
    requires n < 10000
  {
    Pad2(n / 100) + Pad2(n % 100)
  }

  /** The zero-padded text the format describes; hour 0 is written as 12. */
  function Format(dt: DateTime): string
    requires ValidClock(dt)
  {
    Pad2(dt.day) + "/" + Pad2(dt.month) + "/" + Pad4(dt.year) + " "
    + Pad2(if dt.hour == 0 then 12 else dt.hour) + ":" + Pad2(dt.minute)
  }

  lemma Pad2Number(n: nat)
    requires n < 100
    ensures AllDigits(Pad2(n)) && Number(Pad2(n)) == n
  {
    var p := Pad2(n);
    assert p[..1][..0] == [];
    assert Number(p[..1]) == DigitValue(p[0]);
    assert Number(p) == 10 * DigitValue(p[0]) + DigitValue(p[1]);
  }

  lemma Pad4Number(n: nat)
    requires n < 10000
    ensures AllDigits(Pad4(n)) && Number(Pad4(n)) == n
  {
    var hi, lo := Pad2(n / 100), Pad2(n % 100);
    Pad2Number(n / 100);
    Pad2Number(n % 100);
    var p := hi + lo;
    assert p[..3] == hi + [lo[0]] && p[..3][..2] == hi;
    assert Number(p[..3]) == 10 * (n / 100) + DigitValue(lo[0]);
    assert Number(lo) == 10 * DigitValue(lo[0]) + DigitValue(lo[1]) by {
      assert lo[..1][..0] == [];
    }
  }

  lemma IndexOfAfter(a: string, c: char, b: string)
    requires forall k :: 0 <= k < |a| ==> a[k] != c
    ensures IndexOf(a + [c] + b, c) == Some(|a|)
  {
    var s := a + [c] + b;
    assert s[|a|] == c;
    assert forall k :: 0 <= k < |a| ==> s[k] == a[k];
  }

  /** A run of digits followed by `sep` and `rest` splits at that `sep`. */
  lemma SplitAfterDigits(a: string, sep: char, rest: string)
    requires AllDigits(a) && !IsDigit(sep)
    ensures IndexOf(a + [sep] + rest, sep) == Some(|a|)
    ensures (a + [sep] + rest)[..|a|] == a
    ensures (a + [sep] + rest)[|a| + 1..] == rest
  {
    IndexOfAfter(a, sep, rest);
  }

  lemma ScanTimeLayout(h: string, mi: string, day: int, month: int, year: int)
    requires AllDigits(h) && AllDigits(mi)
    ensures ScanTime(h + ":" + mi, day, month, year) ==
      if UpToTwelveToken(h).Some? && MinuteToken(mi).Some?
      then Some(DateTime(year, month, day, MorningHour(UpToTwelveToken(h).value), MinuteToken(mi).value))
      else None
  {
    assert h + ":" + mi == h + [':'] + mi;
    SplitAfterDigits(h, ':', mi);
  }

  lemma SingleSpace(h: string, mi: string)
    requires AllDigits(h)
    ensures SpaceRun(" " + h + ":" + mi) == 1
  {
    var t := h + ":" + mi;
    assert !IsSpace(t[0]) by {
      if |h| > 0 { assert t[0] == h[0]; } else { assert t[0] == ':'; }
    }
    assert (" " + h + ":" + mi)[1..] == t;
  }

  lemma ScanYearAt(s: string, day: int, month: int)
    requires |s| > 4 && AllDigits(s[..4]) && SpaceRun(s[4..]) == 1
    ensures ScanYear(s, day, month) == ScanTime(s[5..], day, month, Number(s[..4]))
  {
  }

  lemma ScanYearLayout(y: string, h: string, mi: string, day: int, month: int)
    requires AllDigits(y) && |y| == 4 && AllDigits(h)
    ensures ScanYear(y + " " + h + ":" + mi, day, month) == ScanTime(h + ":" + mi, day, month, Number(y))
  {
    var s := y + " " + h + ":" + mi;
    assert |s| > 4 && s[..4] == y && s[5..] == h + ":" + mi && SpaceRun(s[4..]) == 1 by {
      assert s[4..] == " " + h + ":" + mi;
      SingleSpace(h, mi);
    }
    ScanYearAt(s, day, month);
  }

  lemma ScanMonthLayout(m: string, rest: string, day: int)
    requires AllDigits(m)
    ensures ScanMonth(m + "/" + rest, day) ==
      if UpToTwelveToken(m).Some? then ScanYear(rest, day, UpToTwelveToken(m).value) else None
  {
    assert m + "/" + rest == m + ['/'] + rest;
    SplitAfterDigits(m, '/', rest);
  }

  lemma ScanDayLayout(d: string, rest: string)
    requires AllDigits(d)
    ensures Scan(d + "/" + rest) ==
      if DayToken(d).Some? then ScanMonth(rest, DayToken(d).value) else None
  {
    assert d + "/" + rest == d + ['/'] + rest;
    SplitAfterDigits(d, '/', rest);
  }

  /**
   * For the layout `d/m/Y I:M` made of digit runs, the match reads each run as its token:
   * the text is accepted exactly when every run is a valid token.
   */
  lemma ScanLayout(d: string, m: string, y: string, h: string, mi: string)
    requires AllDigits(d) && AllDigits(m) && AllDigits(y) && AllDigits(h) && AllDigits(mi)
    requires |y| == 4
    ensures Scan(d + "/" + m + "/" + y + " " + h + ":" + mi) ==
      if DayToken(d).Some? && UpToTwelveToken(m).Some? && UpToTwelveToken(h).Some? && MinuteToken(mi).Some?
      then Some(DateTime(Number(y), UpToTwelveToken(m).value, DayToken(d).value,
                         MorningHour(UpToTwelveToken(h).value), MinuteToken(mi).value))
      else None
  {
    var tail := y + " " + h + ":" + mi;
    var afterDay := m + "/" + tail;
    assert d + "/" + m + "/" + y + " " + h + ":" + mi == d + "/" + afterDay;
    ScanDayLayout(d, afterDay);
    if DayToken(d).Some? {
      ScanMonthLayout(m, tail, DayToken(d).value);
      if UpToTwelveToken(m).Some? {
        ScanYearLayout(y, h, mi, DayToken(d).value, UpToTwelveToken(m).value);
        ScanTimeLayout(h, mi, DayToken(d).value, UpToTwelveToken(m).value, Number(y));
      }
    }
  }

  /** Every moment the format can express survives printing and reading back. */
  lemma FormatRoundTrip(dt: DateTime)
    requires ValidClock(dt)
    ensures ParseClock(Format(dt)) == Success(dt)
  {
    var h := if dt.hour == 0 then 12 else dt.hour;
    Pad2Number(dt.day);
    Pad2Number(dt.month);
    Pad4Number(dt.year);
    Pad2Number(h);
    Pad2Number(dt.minute);
    ScanLayout(Pad2(dt.day), Pad2(dt.month), Pad4(dt.year), Pad2(h), Pad2(dt.minute));
  }

  /**
   * A 24-hour time whose hour is 00 or 13 and later is rejected, whatever the date: the
   * format reads a 12-hour clock.
   */
  lemma TwentyFourHourTimeRejected(date: DateTime, hour: nat, minute: nat)
    requires ValidDate(date) && hour < 100 && (hour == 0 || hour > 12) && minute < 60
    ensures ParseClock(Pad2(date.day) + "/" + Pad2(date.month) + "/" + Pad4(date.year) + " "
                       + Pad2(hour) + ":" + Pad2(minute)).Failure?
  {
    Pad2Number(date.day);
    Pad2Number(date.month);
    Pad4Number(date.year);
    Pad2Number(hour);
    Pad2Number(minute);
    ScanLayout(Pad2(date.day), Pad2(date.month), Pad4(date.year), Pad2(hour), Pad2(minute));
  }

  /** "12:MM" carries no a.m./p.m. marker and is read as 00:MM. */
  lemma NoonReadAsMidnight(date: DateTime, minute: nat)
    requires ValidDate(date) && minute < 60
    ensures ParseClock(Pad2(date.day) + "/" + Pad2(date.month) + "/" + Pad4(date.year) + " "
                       + Pad2(12) + ":" + Pad2(minute)) == Success(date.(hour := 0, minute := minute))
  {
    FormatRoundTrip(date.(hour := 0, minute := minute));
  }

  lemma ExamplePads()
    ensures Pad2(31) == "31" && Pad2(12) == "12" && Pad2(11) == "11" && Pad2(45) == "45"
  {
  }

  lemma ExampleYearPad()
    ensures Pad4(2020) == "2020"
  {
    assert Pad2(20) == "20";
  }

  lemma ExampleText()
    ensures ValidClock(DateTime(2020, 12, 31, 11, 45))
    ensures Format(DateTime(2020, 12, 31, 11, 45)) == "31/12/2020 11:45"
  {
    ExamplePads();
    ExampleYearPad();
  }

  /** A date "d/m/yyyy" and a time "h:mi" written in digits parse, if at all, to the year yyyy. */
  lemma ParsedYear(date: string, time: string, d: string, m: string, y: string, h: string, mi: string)
    requires AllDigits(d) && AllDigits(m) && AllDigits(y) && AllDigits(h) && AllDigits(mi) && |y| == 4
    requires date == d + "/" + m + "/" + y && time == h + ":" + mi
    ensures ParseClock(date + " " + time).Success? ==> ParseClock(date + " " + time).value.year == Number(y)
  {
    assert date + " " + time == d + "/" + m + "/" + y + " " + h + ":" + mi;
    ScanLayout(d, m, y, h, mi);
  }

  /** The worked example: 31/12/2020 at 11:45 lies in 2020. */
  lemma ExampleTimestamp()
    ensures ParseClock("31/12/2020 11:45") == Success(DateTime(2020, 12, 31, 11, 45))
  {
    ExampleText();
    FormatRoundTrip(DateTime(2020, 12, 31, 11, 45));
  }
}

=== FILE: collision_list.dfy ===
/**
 * A collection of collisions: the exact-match filter, and the loading of archive rows in
 * the order they are read.
 */
module CollisionList {
  import opened Values
  import Paths
  import opened CollisionRecord

  /** The keyword arguments of `filter`, in the order they were passed. */
  type Criteria = seq<(string, AttrValue)>

  /**
   * How `filter` reads an attribute: `getattr`. A collision's own attribute lookup is
   * `CollisionRecord.GetAttr`; the filter's laws hold for any lookup, so they take it as given.
   */
  type Getter = (Collision, string) -> Result<AttrValue>

  /** Every criterion holds: the named attribute resolves and equals the wanted value. */
  ghost predicate Satisfies(c: Collision, crit: Criteria, get: Getter)
  {
    forall k :: 0 <= k < |crit| ==> get(c, crit[k].0) == Success(crit[k].1)
  }

  /** `getattr(c, name) == wanted` for one criterion. */
  function Compare(c: Collision, criterion: (string, AttrValue), get: Getter): (r: Result<bool>)
    ensures r.Success? <==> get(c, criterion.0).Success?
    ensures r.Success? ==> (r.value <==> get(c, criterion.0) == Success(criterion.1))
    ensures r.Failure? ==> r.error == get(c, criterion.0).error
  {
    var actual :- get(c, criterion.0);
    Success(actual == criterion.1)
  }

  /**
   * `all([getattr(c, k) == v for k, v in criteria])`: the list is built in full before `all`
   * sees it, so every lookup is made and the first one that raises is what escapes.
   */
  function Matches(c: Collision, crit: Criteria, get: Getter): (r: Result<bool>)
    ensures r.Success? <==> forall k :: 0 <= k < |crit| ==> get(c, crit[k].0).Success?
    ensures r.Success? ==> (r.value <==> Satisfies(c, crit, get))
    ensures r.Failure? ==>
      exists k :: (0 <= k < |crit| && get(c, crit[k].0).Failure? && r.error == get(c, crit[k].0).error
                   && forall j :: 0 <= j < k ==> get(c, crit[j].0).Success?)
  {
    var outcomes :- MapEach(criterion => Compare(c, criterion, get), crit);
    Success(forall k :: 0 <= k < |outcomes| ==> outcomes[k])
  }

  /**
   * Some criterion is named `self`. `filter` takes its criteria as keyword arguments next to
   * its own `self` parameter, so such a call is refused at binding time.
   */
  predicate NamesSelf(crit: Criteria)
  {
    exists k :: 0 <= k < |crit| && crit[k].0 == "self"
  }

  /**
   * `Collisions.filter(**criteria)`: the collisions that match, in their original order, as a
   * new sequence; each collision is examined in turn and the first lookup that raises escapes.
   * A criterion named `self` raises a TypeError before any collision is looked at.
   */
  function Filter(cs: seq<Collision>, crit: Criteria, get: Getter): (r: Result<seq<Collision>>)
    ensures NamesSelf(crit) ==> r == Failure(DuplicateArgument("self"))
    ensures !NamesSelf(crit) ==>
      (r.Success? <==> forall i, k :: 0 <= i < |cs| && 0 <= k < |crit| ==> get(cs[i], crit[k].0).Success?)
    ensures r.Success? ==> !NamesSelf(crit) && |r.value| <= |cs|
    ensures r.Success? ==> forall j :: 0 <= j < |r.value| ==> Satisfies(r.value[j], crit, get)
    ensures r.Failure? && !NamesSelf(crit) ==>
      exists i :: (0 <= i < |cs| && Matches(cs[i], crit, get).Failure? && r.error == Matches(cs[i], crit, get).error
                   && forall j :: 0 <= j < i ==> Matches(cs[j], crit, get).Success?)
  {
    if NamesSelf(crit) then Failure(DuplicateArgument("self"))
    else Select(cs, c => Matches(c, crit, get))
  }

  /**
   * Filtering a non-empty collection on a name that is not an attribute raises at once: the
   * AttributeError of the first collision's lookup, or the call's TypeError for `self`.
   */
  lemma FilterUnknownAttribute(cs: seq<Collision>, name: string, wanted: AttrValue)
    requires |cs| > 0 && name !in AttributeNames
    ensures Filter(cs, [(name, wanted)], GetAttr)
      == if name == "self" then Failure(DuplicateArgument("self")) else Failure(NoAttribute(name))
  {
    var crit: Criteria := [(name, wanted)];
    if name == "self" {
      assert crit[0].0 == "self";
    } else {
      assert !NamesSelf(crit);
      UnknownAttributeFails(cs[0], name);
      assert Matches(cs[0], crit, GetAttr) == Failure(NoAttribute(name));
      var r := Filter(cs, crit, GetAttr);
      var i :| 0 <= i < |cs| && Matches(cs[i], crit, GetAttr).Failure? && r.error == Matches(cs[i], crit, GetAttr).error
        && forall j :: 0 <= j < i ==> Matches(cs[j], crit, GetAttr).Success?;
      assert i == 0;
    }
  }

  /**
   * `idx` lists, in increasing order, positions of `cs` whose collision matches, and every
   * matching position is listed.
   */
  ghost predicate MatchingPositions(cs: seq<Collision>, crit: Criteria, get: Getter, idx: seq<int>)
  {
    (forall j :: 0 <= j < |idx| ==> 0 <= idx[j] < |cs| && Satisfies(cs[idx[j]], crit, get))
    && (forall j, k :: 0 <= j < k < |idx| ==> idx[j] < idx[k])
    && (forall i :: 0 <= i < |cs| && Satisfies(cs[i], crit, get) ==> exists j :: 0 <= j < |idx| && idx[j] == i)
  }

  /** A collision passes the filter's test exactly when it satisfies every criterion. */
  lemma MatchesIsSatisfies(c: Collision, crit: Criteria, get: Getter)
    ensures Matches(c, crit, get) == Success(true) <==> Satisfies(c, crit, get)
  {
  }

  /** Positions that pass the filter's test are the matching positions. */
  lemma PassingIsMatching(cs: seq<Collision>, crit: Criteria, get: Getter, idx: seq<int>)
    requires PassingPositions(cs, c => Matches(c, crit, get), idx)
    ensures MatchingPositions(cs, crit, get, idx)
  {
    forall i | 0 <= i < |cs|
      ensures Matches(cs[i], crit, get) == Success(true) <==> Satisfies(cs[i], crit, get)
    {
      MatchesIsSatisfies(cs[i], crit, get);
    }
  }

  /**
   * The filter is sound, complete and keeps order: its result is the matching collisions
   * picked out at increasing positions of the source.
   */
  lemma FilterExact(cs: seq<Collision>, crit: Criteria, get: Getter)
    requires Filter(cs, crit, get).Success?
    ensures exists idx :: (MatchingPositions(cs, crit, get, idx)
      && |idx| == |Filter(cs, crit, get).value|
      && forall j :: 0 <= j < |idx| ==> Filter(cs, crit, get).value[j] == cs[idx[j]])
  {
    var test := c => Matches(c, crit, get);
    SelectExact(cs, test);
    var idx :| PassingPositions(cs, test, idx)
      && |idx| == |Select(cs, test).value|
      && forall j :: 0 <= j < |idx| ==> Select(cs, test).value[j] == cs[idx[j]];
    PassingIsMatching(cs, crit, get, idx);
  }

  /** With no criteria, `all([])` holds for every collision, so nothing is dropped. */
  lemma FilterNoCriteria(cs: seq<Collision>, get: Getter)
    ensures Filter(cs, [], get) == Success(cs)
  {
    SelectKeepsAll(cs, c => Matches(c, [], get));
  }

  /** Filtering an already filtered collection again with the same criteria changes nothing. */
  lemma FilterIdempotent(cs: seq<Collision>, crit: Criteria, get: Getter)
    requires Filter(cs, crit, get).Success?
    ensures Filter(Filter(cs, crit, get).value, crit, get) == Filter(cs, crit, get)
  {
    SelectKeepsAll(Filter(cs, crit, get).value, c => Matches(c, crit, get));
  }

  /** The parser `from_file` applies to each row: `Collision.parse` on the row's dict. */
  function RowParser(normalise: Normaliser): Record -> Result<Collision>
  {
    row => ParseDict(row, normalise)
  }

  /**
   * The row loop of `Collisions.from_file`: a path whose extension is not ".tgz" raises before
   * anything is read; otherwise each row is parsed as a dict and appended, in row order, and
   * the first row that fails to parse stops the load. The rows are what the archive yields.
   */
  method FromFile(path: string, rows: seq<Record>, normalise: Normaliser) returns (r: Result<seq<Collision>>)
    ensures !Paths.IsArchive(path) ==> r == Failure(UnsupportedFormat)
    ensures Paths.IsArchive(path) ==> r == MapEach(RowParser(normalise), rows)
  {
    if !Paths.IsArchive(path) {
      return Failure(UnsupportedFormat);
    }
    var parse := RowParser(normalise);
    var loaded: seq<Collision> := [];
    var i := 0;
    while i < |rows|
      invariant 0 <= i <= |rows|
      invariant MapEach(parse, rows[..i]) == Success(loaded)
    {
      assert rows[..i + 1] == rows[..i] + [rows[i]];
      MapEachSnoc(parse, rows[..i], rows[i]);
      var parsed := ParseDict(rows[i], normalise);
      assert parse(rows[i]) == parsed;
      if parsed.Failure? {
        MapEachPrefixFailure(parse, rows, i + 1);
        return Failure(parsed.error);
      }
      loaded := loaded + [parsed.value];
      i := i + 1;
    }
    assert rows[..i] == rows;
    return Success(loaded);
  }

  /** Every row of an archive is read into one collision, in row order, or the load fails. */
  lemma FromFileOneRecordPerRow(rows: seq<Record>, normalise: Normaliser)
    ensures var r := MapEach(RowParser(normalise), rows);
      && (r.Success? <==> forall i :: 0 <= i < |rows| ==> ParseDict(rows[i], normalise).Success?)
      && (r.Success? ==> |r.value| == |rows| && forall i :: 0 <= i < |rows| ==> ParseDict(rows[i], normalise) == Success(r.value[i]))
      && (r.Failure? ==> exists i :: (0 <= i < |rows| && ParseDict(rows[i], normalise).Failure?
                                      && r.error == ParseDict(rows[i], normalise).error
                                      && forall j :: 0 <= j < i ==> ParseDict(rows[j], normalise).Success?))
  {
    var parse := RowParser(normalise);
    assert forall row :: parse(row) == ParseDict(row, normalise);
  }

  /** A path that is not an archive adds no rows: the load so far stands. */
  lemma SkipStep(paths: seq<string>, i: nat, rowsOf: string -> seq<Record>)
    requires i < |paths| && !Paths.IsArchive(paths[i])
    ensures Paths.Gather(paths[..i + 1], Paths.IsArchive, rowsOf) == Paths.Gather(paths[..i], Paths.IsArchive, rowsOf)
  {
    assert paths[..i + 1] == paths[..i] + [paths[i]];
    Paths.GatherAppend(paths[..i], paths[i], Paths.IsArchive, rowsOf);
  }

  /** One kept path more: its parsed rows follow the ones parsed so far. */
  lemma GatherStep<C>(paths: seq<string>, i: nat, keep: string -> bool, rowsOf: string -> seq<Record>,
                      parse: Record -> Result<C>, loaded: seq<C>)
    requires i < |paths| && keep(paths[i])
    requires MapEach(parse, Paths.Gather(paths[..i], keep, rowsOf)) == Success(loaded)
    requires MapEach(parse, rowsOf(paths[i])).Success?
    ensures MapEach(parse, Paths.Gather(paths[..i + 1], keep, rowsOf))
         == Success(loaded + MapEach(parse, rowsOf(paths[i])).value)
  {
    assert paths[..i + 1] == paths[..i] + [paths[i]];
    Paths.GatherAppend(paths[..i], paths[i], keep, rowsOf);
    MapEachConcat(parse, Paths.Gather(paths[..i], keep, rowsOf), rowsOf(paths[i]));
  }

  /**
   * `Collisions.from_dir`: every path the directory search yields is tried in turn; one that
   * is not a ".tgz" archive is skipped, and each archive's collisions are added in order. The
   * result is what loading all archive rows, in that order, as one file gives.
   */
  method FromDir(paths: seq<string>, rowsOf: string -> seq<Record>, normalise: Normaliser)
    returns (r: Result<seq<Collision>>)
    ensures r == MapEach(RowParser(normalise), Paths.Gather(paths, Paths.IsArchive, rowsOf))
  {
    var loaded: seq<Collision> := [];
    var i := 0;
    while i < |paths|
      invariant 0 <= i <= |paths|
      invariant MapEach(RowParser(normalise), Paths.Gather(paths[..i], Paths.IsArchive, rowsOf)) == Success(loaded)
    {
      if Paths.IsArchive(paths[i]) {
        var part := FromFile(paths[i], rowsOf(paths[i]), normalise);
        if part.Failure? {
          Paths.GatherAround(paths, i, Paths.IsArchive, rowsOf);
          MapEachStopsAt(RowParser(normalise), Paths.Gather(paths[..i], Paths.IsArchive, rowsOf), rowsOf(paths[i]),
                         Paths.Gather(paths[i + 1..], Paths.IsArchive, rowsOf));
          return Failure(part.error);
        }
        GatherStep(paths, i, Paths.IsArchive, rowsOf, RowParser(normalise), loaded);
        loaded := loaded + part.value;
      } else {
        SkipStep(paths, i, rowsOf);
      }
      i := i + 1;
    }
    assert paths[..i] == paths;
    return Success(loaded);
  }
}

=== FILE: collision_record.dfy ===
/**
 * One collision record: an open mapping from field name to raw value, read through named
 * accessors, with the identifier, coordinate pair, timestamp and year derived on every access.
 */
module CollisionRecord {
  import opened Values
  import Clock

  /** A collision: the keyword arguments it was built from, kept as they are. */
  datatype Collision = Collision(data: Record)

  /**
   * The raw-record normaliser of the base library (`RawCollision.parse(d).data`). Its code is
   * not part of this model, so it is a parameter; it may fail.
   */
  type Normaliser = Record -> Result<Record>

  /** The shapes `Collision.parse` distinguishes. */
  datatype Input = Existing(c: Collision) | Dict(d: Record) | OtherShape

  /** What `getattr` can return for a collision. */
  datatype AttrValue =
    | Scalar(v: Value)
    | Pair(first: Value, second: Value)
    | Moment(t: Clock.DateTime)
    | Mapping(m: Record)

  /**
   * The keys `serialize` copies straight from an accessor, in the order it evaluates them
   * (written in blocks of ten, which keeps membership questions about them cheap to decide).
   */
  const FieldNames: seq<string> :=
    ["accident_reference", "accident_severity", "age_band_of_casualty", "age_band_of_driver",
       "age_of_casualty", "age_of_driver", "age_of_vehicle", "bus_or_coach_passenger",
       "car_passenger", "carriageway_hazards"]
    + ["casualty_class", "casualty_home_area_type", "casualty_imd_decile", "casualty_reference",
       "casualty_severity", "casualty_type", "date", "day_of_week",
       "did_police_officer_attend_scene_of_accident", "driver_home_area_type"]
    + ["driver_imd_decile", "engine_capacity_cc", "first_point_of_impact", "first_road_class",
       "first_road_number", "generic_make_model", "hit_object_in_carriageway",
       "hit_object_off_carriageway", "journey_purpose_of_driver", "junction_control"]
    + ["junction_detail", "junction_location", "light_conditions", "local_authority_district",
       "local_authority_highway", "local_authority_ons_district", "location_easting_osgr",
       "location_northing_osgr", "lsoa_of_accident_location", "number_of_casualties"]
    + ["number_of_vehicles", "pedestrian_crossing_human_control",
       "pedestrian_crossing_physical_facilities", "pedestrian_location", "pedestrian_movement",
       "pedestrian_road_maintenance_worker", "police_force", "propulsion_code",
       "road_surface_conditions", "road_type"]
    + ["second_road_class", "second_road_number", "sex_of_casualty", "sex_of_driver",
       "skidding_and_overturning", "special_conditions_at_site", "speed_limit", "time",
       "towing_and_articulation", "trunk_road_flag"]
    + ["urban_or_rural_area", "vehicle_direction_from", "vehicle_direction_to",
       "vehicle_leaving_carriageway", "vehicle_left_hand_drive", "vehicle_location_restricted_lane",
       "vehicle_manoeuvre", "vehicle_reference", "vehicle_type", "weather_conditions"]

  /** The accessors that return a stored field unchanged. */
  const PlainAccessors: set<string> := (set n | n in FieldNames) + {"accident_year"}

  /** Every attribute name `getattr` resolves on a collision in this model. */
  const AttributeNames: set<string> := PlainAccessors + {"id", "geo", "timestamp", "year", "data"}


  // Membership of one name in the 70-name list costs the solver a scan of the whole list,
  // so each fact the contracts below rely on is established once, by its own lemma.

  lemma IdIsNotAField() ensures "id" !in FieldNames {}
  lemma LatIsNotAField() ensures "lat" !in FieldNames {}
  lemma LngIsNotAField() ensures "lng" !in FieldNames {}
  lemma YearIsNotAField() ensures "year" !in FieldNames {}
  lemma GeoIsNotAField() ensures "geo" !in FieldNames {}
  lemma TimestampIsNotAField() ensures "timestamp" !in FieldNames {}
  lemma DataIsNotAField() ensures "data" !in FieldNames {}
  lemma AccidentIndexIsNotAField() ensures "accident_index" !in FieldNames {}
  lemma LatitudeIsNotAField() ensures "latitude" !in FieldNames {}
  lemma SelfIsNotAField() ensures "self" !in FieldNames {}
  lemma DateIsAField() ensures "date" in FieldNames {}
  lemma TimeIsAField() ensures "time" in FieldNames {}

  /**
   * `Collision(**d)`: the keyword arguments become the backing map, except that a key `self`
   * clashes with the instance parameter of `__init__(self, **kwargs)` and raises a TypeError.
   */
  function Build(d: Record): (r: Result<Collision>)
    ensures r.Success? <==> "self" !in d
    ensures r.Success? ==> r.value.data == d
    ensures r.Failure? ==> r.error == DuplicateArgument("self")
  {
    if "self" in d then Failure(DuplicateArgument("self")) else Success(Collision(d))
  }

  /**
   * `Collision.parse` for a dict: one with a `data` key goes through the raw normaliser,
   * any other becomes the backing map as it is; either map is refused if it has a `self` key.
   */
  function ParseDict(d: Record, normalise: Normaliser): (r: Result<Collision>)
    ensures "data" !in d ==> (r.Success? <==> "self" !in d)
    ensures "data" !in d && r.Success? ==> r.value == Collision(d)
    ensures "data" !in d && r.Failure? ==> r.error == DuplicateArgument("self")
    ensures "data" in d ==> (r.Success? <==> normalise(d).Success? && "self" !in normalise(d).value)
    ensures "data" in d && r.Success? ==> r.value.data == normalise(d).value
    ensures "data" in d && r.Failure? ==>
      r.error == if normalise(d).Failure? then normalise(d).error else DuplicateArgument("self")
  {
    if "data" in d then
      var raw :- normalise(d);
      Build(raw)
    else
      Build(d)
  }

  /**
   * `Collision.parse`: a collision comes back as it is, a dict is parsed, and any other
   * shape falls through both tests, so the call returns `None`.
   */
  function Parse(x: Input, normalise: Normaliser): (r: Result<Option<Collision>>)
    ensures x.Existing? ==> r == Success(Some(x.c))
    ensures x.Dict? ==> (r.Success? <==> ParseDict(x.d, normalise).Success?)
    ensures x.Dict? && r.Success? ==> r.value == Some(ParseDict(x.d, normalise).value)
    ensures x.Dict? && r.Failure? ==> r.error == ParseDict(x.d, normalise).error
    ensures x.OtherShape? ==> r == Success(None)
  {
    match x
    case Existing(c) => Success(Some(c))
    case Dict(d) =>
      var c :- ParseDict(d, normalise);
      Success(Some(c))
    case OtherShape => Success(None)
  }

  /** Parsing what `parse` produced gives the same collision back. */
  lemma ParseIdempotent(x: Input, normalise: Normaliser)
    requires Parse(x, normalise).Success? && Parse(x, normalise).value.Some?
    ensures Parse(Existing(Parse(x, normalise).value.value), normalise) == Parse(x, normalise)
  {
  }

  /** A plain field accessor: `self.data[name]`. */
  function Field(c: Collision, name: string): (r: Result<Value>)
    ensures r.Success? <==> name in c.data
    ensures r.Success? ==> r.value == c.data[name]
    ensures r.Failure? ==> r.error == MissingField(name)
  {
    Lookup(c.data, name)
  }

  /** `id`: the accident index. */
  function Id(c: Collision): (r: Result<Value>)
    ensures r.Success? <==> "accident_index" in c.data
    ensures r.Success? ==> r.value == c.data["accident_index"]
    ensures r.Failure? ==> r.error == MissingField("accident_index")
  {
    Field(c, "accident_index")
  }

  /** `geo`: latitude then longitude; a missing latitude is reported first. */
  function Geo(c: Collision): (r: Result<(Value, Value)>)
    ensures r.Success? <==> "latitude" in c.data && "longitude" in c.data
    ensures r.Success? ==> r.value == (c.data["latitude"], c.data["longitude"])
    ensures "latitude" !in c.data ==> r == Failure(MissingField("latitude"))
    ensures "latitude" in c.data && "longitude" !in c.data ==> r == Failure(MissingField("longitude"))
  {
    var lat :- Field(c, "latitude");
    var lng :- Field(c, "longitude");
    Success((lat, lng))
  }

  /** The f-string `f'{date} {time}'` handed to strptime. */
  function TimestampText(c: Collision): (r: Result<string>)
    ensures r.Success? <==> "date" in c.data && "time" in c.data
    ensures r.Success? ==> r.value == Render(c.data["date"]) + " " + Render(c.data["time"])
    ensures "date" !in c.data ==> r == Failure(MissingField("date"))
    ensures "date" in c.data && "time" !in c.data ==> r == Failure(MissingField("time"))
  {
    var date :- Field(c, "date");
    var time :- Field(c, "time");
    Success(Render(date) + " " + Render(time))
  }

  /** `timestamp`: the stored date and time read with '%d/%m/%Y %I:%M'. */
  function Timestamp(c: Collision): (r: Result<Clock.DateTime>)
    ensures r.Success? ==> Clock.ValidClock(r.value)
    ensures r.Success? <==> TimestampText(c).Success? && Clock.ParseClock(TimestampText(c).value).Success?
    ensures r.Success? ==> r.value == Clock.ParseClock(TimestampText(c).value).value
    ensures r.Failure? ==>
      r.error == if TimestampText(c).Failure? then TimestampText(c).error else BadTimestamp(TimestampText(c).value)
  {
    var text :- TimestampText(c);
    Clock.ParseClock(text)
  }

  /** `year`: the year of the timestamp. */
  function Year(c: Collision): (r: Result<int>)
    ensures r.Success? <==> Timestamp(c).Success?
    ensures r.Success? ==> 1 <= r.value <= 9999 && r.value == Timestamp(c).value.year
    ensures r.Failure? ==> r.error == Timestamp(c).error
  {
    var t :- Timestamp(c);
    Success(t.year)
  }

  /** The year depends on nothing but the stored date and time. */
  lemma YearReadsDateTime(a: Collision, b: Collision)
    requires Field(a, "date") == Field(b, "date") && Field(a, "time") == Field(b, "time")
    ensures Year(a) == Year(b)
  {
    assert TimestampText(a) == TimestampText(b);
  }

  /** For a stored date "d/m/yyyy" and time "h:mi" made of digits, a year that resolves is yyyy. */
  lemma YearIsDateYear(c: Collision, d: string, m: string, y: string, h: string, mi: string)
    requires Clock.AllDigits(d) && Clock.AllDigits(m) && Clock.AllDigits(y) && |y| == 4
    requires Clock.AllDigits(h) && Clock.AllDigits(mi)
    requires "date" in c.data && c.data["date"] == Str(d + "/" + m + "/" + y)
    requires "time" in c.data && c.data["time"] == Str(h + ":" + mi)
    ensures Year(c).Success? ==> Year(c).value == Clock.Number(y)
  {
    var date, time := d + "/" + m + "/" + y, h + ":" + mi;
    assert TimestampText(c) == Success(date + " " + time);
    Clock.ParsedYear(date, time, d, m, y, h, mi);
  }

  /**
   * The fields named in `names` as a map, looked up in order; the first missing one is the
   * KeyError that escapes.
   */
  function FieldValues(c: Collision, names: seq<string>): (r: Result<Record>)
    ensures r.Success? <==> forall n :: n in names ==> n in c.data
    ensures r.Success? ==> forall n :: n in r.value <==> n in names
    ensures r.Success? ==> forall n :: n in r.value ==> n in c.data && r.value[n] == c.data[n]
    ensures r.Failure? ==>
      exists i :: (0 <= i < |names| && r.error == MissingField(names[i])
                   && names[i] !in c.data && forall j :: 0 <= j < i ==> names[j] in c.data)
    ensures r.Failure? ==> exists n :: n in names && n !in c.data && r.error == MissingField(n)
  {
    if |names| == 0 then Success(map[])
    else
      var v :- Field(c, names[0]);
      var rest :- FieldValues(c, names[1..]);
      Success(rest[names[0] := v])
  }

  /** The stored fields `serialize` reads for a given list of plainly copied names. */
  function Needed(names: seq<string>): set<string>
  {
    (set n | n in names) + {"accident_index", "latitude", "longitude"}
  }

  /** The listed fields with the four derived keys laid over them. */
  function Assemble(fields: Record, id: Value, lat: Value, lng: Value, year: int): (r: Record)
    ensures r.Keys == fields.Keys + {"id", "lat", "lng", "year"}
    ensures r["id"] == id && r["lat"] == lat && r["lng"] == lng && r["year"] == Int(year)
    ensures forall f :: f in fields && f != "id" && f != "lat" && f != "lng" && f != "year" ==> r[f] == fields[f]
  {
    fields + map["id" := id, "lat" := lat, "lng" := lng, "year" := Int(year)]
  }

  /**
   * The dict `serialize` builds, for any list of plainly copied names that does not reuse a
   * derived key: identifier, coordinates and year first, then the listed fields.
   */
  function SerializeOver(c: Collision, names: seq<string>): (r: Result<Record>)
    requires "id" !in names && "lat" !in names && "lng" !in names && "year" !in names
    ensures r.Success? <==> Needed(names) <= c.data.Keys && Year(c).Success?
    ensures r.Success? ==> r.value.Keys == (set n | n in names) + {"id", "lat", "lng", "year"}
    ensures r.Success? ==> r.value["id"] == c.data["accident_index"]
    ensures r.Success? ==> r.value["lat"] == c.data["latitude"] && r.value["lng"] == c.data["longitude"]
    ensures r.Success? ==> r.value["year"] == Int(Year(c).value)
    ensures r.Success? ==> forall f :: f in names ==> r.value[f] == c.data[f]
    ensures r.Failure? ==>
      (exists k :: k in Needed(names) && k !in c.data && r.error == MissingField(k))
      || (Year(c).Failure? && r.error == Year(c).error)
  {
    assert Needed(names) <= c.data.Keys <==>
      (forall n :: n in names ==> n in c.data)
      && "accident_index" in c.data && "latitude" in c.data && "longitude" in c.data;
    var id :- Id(c);
    var geo :- Geo(c);
    var year :- Year(c);
    var fields :- FieldValues(c, names);
    Success(Assemble(fields, id, geo.0, geo.1, year))
  }

  /** `serialize`: every accessor, in the order the dict display evaluates them. */
  function Serialize(c: Collision): (r: Result<Record>)
    ensures r.Success? <==> Needed(FieldNames) <= c.data.Keys && Year(c).Success?
    ensures r.Success? ==> r.value.Keys == (set n | n in FieldNames) + {"id", "lat", "lng", "year"}
    ensures r.Success? ==> r.value["id"] == c.data["accident_index"]
    ensures r.Success? ==> r.value["lat"] == c.data["latitude"] && r.value["lng"] == c.data["longitude"]
    ensures r.Success? ==> r.value["year"] == Int(Year(c).value)
    ensures r.Success? ==> forall f :: f in FieldNames ==> r.value[f] == c.data[f]
    ensures r.Failure? ==>
      (exists k :: k in Needed(FieldNames) && k !in c.data && r.error == MissingField(k))
      || (Year(c).Failure? && r.error == Year(c).error)
  {
    IdIsNotAField();
    LatIsNotAField();
    LngIsNotAField();
    YearIsNotAField();
    SerializeOver(c, FieldNames)
  }

  /** `getattr(c, name)` over the attributes a collision has. */
  function GetAttr(c: Collision, name: string): (r: Result<AttrValue>)
    ensures name !in AttributeNames <==> r == Failure(NoAttribute(name))
    ensures name in PlainAccessors ==> (r.Success? <==> name in c.data)
    ensures name in PlainAccessors && r.Success? ==> r.value == Scalar(c.data[name])
    ensures name in PlainAccessors && r.Failure? ==> r.error == MissingField(name)
    ensures name == "id" ==> r == (if "accident_index" in c.data then Success(Scalar(c.data["accident_index"]))
                                   else Failure(MissingField("accident_index")))
    ensures name == "year" ==> (r.Success? <==> Year(c).Success?)
    ensures name == "year" && r.Success? ==> r.value == Scalar(Int(Year(c).value))
    ensures name == "year" && r.Failure? ==> r.error == Year(c).error
    ensures name == "geo" ==>
      r == if Geo(c).Success? then Success(Pair(Geo(c).value.0, Geo(c).value.1)) else Failure(Geo(c).error)
    ensures name == "timestamp" ==>
      r == if Timestamp(c).Success? then Success(Moment(Timestamp(c).value)) else Failure(Timestamp(c).error)
    ensures name == "data" ==> r == Success(Mapping(c.data))
  {
    IdIsNotAField();
    GeoIsNotAField();
    TimestampIsNotAField();
    YearIsNotAField();
    DataIsNotAField();
    if name == "id" then
      var v :- Id(c);
      Success(Scalar(v))
    else if name == "geo" then
      var g :- Geo(c);
      Success(Pair(g.0, g.1))
    else if name == "timestamp" then
      var t :- Timestamp(c);
      Success(Moment(t))
    else if name == "year" then
      var y :- Year(c);
      Success(Scalar(Int(y)))
    else if name == "data" then
      Success(Mapping(c.data))
    else if name in PlainAccessors then
      var v :- Field(c, name);
      Success(Scalar(v))
    else
      Failure(NoAttribute(name))
  }

  /** Every copied field of the serialized dict, read as the backing map, is the source's. */
  lemma SerializedFields(c: Collision, names: seq<string>)
    requires "id" !in names && "lat" !in names && "lng" !in names && "year" !in names
    requires SerializeOver(c, names).Success?
    ensures forall f :: f in names ==> Field(Collision(SerializeOver(c, names).value), f) == Field(c, f)
  {
    var m := SerializeOver(c, names).value;
    assert forall f :: f in names ==> f in m && m[f] == c.data[f];
  }

  /** The keys of a dict `serialize` wrote: the copied names and the four derived keys. */
  ghost predicate SerializedKeys(m: Record, names: seq<string>)
  {
    m.Keys == (set n | n in names) + {"id", "lat", "lng", "year"}
  }

  /** A serialized dict has neither a `data` nor a `self` key, so parsing takes it as the backing map. */
  lemma SerializedParses(m: Record, names: seq<string>, normalise: Normaliser)
    requires SerializedKeys(m, names) && "data" !in names && "self" !in names
    ensures ParseDict(m, normalise) == Success(Collision(m))
  {
    OnlyListedKeys(m, names, {"id", "lat", "lng", "year"}, "data");
    OnlyListedKeys(m, names, {"id", "lat", "lng", "year"}, "self");
  }

  /** The identifier and the coordinates were written under new keys, so they no longer resolve. */
  lemma SerializedLosesSourceKeys(m: Record, names: seq<string>)
    requires SerializedKeys(m, names) && "accident_index" !in names && "latitude" !in names
    ensures Id(Collision(m)) == Failure(MissingField("accident_index"))
    ensures Geo(Collision(m)) == Failure(MissingField("latitude"))
  {
    OnlyListedKeys(m, names, {"id", "lat", "lng", "year"}, "accident_index");
    OnlyListedKeys(m, names, {"id", "lat", "lng", "year"}, "latitude");
  }

  /**
   * Reading back what `SerializeOver` wrote, for any list of copied names that carries the date
   * and time but neither `data` nor the source keys of the identifier and the coordinates.
   */
  lemma RoundTripOver(c: Collision, names: seq<string>, normalise: Normaliser)
    requires "id" !in names && "lat" !in names && "lng" !in names && "year" !in names
    requires "data" !in names && "self" !in names && "accident_index" !in names && "latitude" !in names
    requires "date" in names && "time" in names
    requires SerializeOver(c, names).Success?
    ensures ParseDict(SerializeOver(c, names).value, normalise).Success?
    ensures var back := ParseDict(SerializeOver(c, names).value, normalise).value;
      && (forall f :: f in names ==> Field(back, f) == Field(c, f))
      && Year(back) == Year(c)
      && Id(back) == Failure(MissingField("accident_index"))
      && Geo(back) == Failure(MissingField("latitude"))
  {
    var m := SerializeOver(c, names).value;
    assert SerializedKeys(m, names);
    SerializedParses(m, names, normalise);
    SerializedLosesSourceKeys(m, names);
    SerializedFields(c, names);
    YearReadsDateTime(Collision(m), c);
  }

  /**
   * Reading a serialized collision back. The dict has no `data` key, so it becomes the
   * backing map: every field `serialize` copied reads back unchanged and so does the year,
   * but the identifier and the coordinates were written under new keys (`id`, `lat`, `lng`)
   * and no longer resolve.
   */
  lemma SerializeParseRoundTrip(c: Collision, normalise: Normaliser)
    requires Serialize(c).Success?
    ensures ParseDict(Serialize(c).value, normalise).Success?
    ensures var back := ParseDict(Serialize(c).value, normalise).value;
      && (forall f :: f in FieldNames ==> Field(back, f) == Field(c, f))
      && Year(back) == Year(c)
      && Id(back) == Failure(MissingField("accident_index"))
      && Geo(back) == Failure(MissingField("latitude"))
  {
    IdIsNotAField();
    LatIsNotAField();
    LngIsNotAField();
    YearIsNotAField();
    DataIsNotAField();
    SelfIsNotAField();
    AccidentIndexIsNotAField();
    LatitudeIsNotAField();
    DateIsAField();
    TimeIsAField();
    RoundTripOver(c, FieldNames, normalise);
  }

  /** An attribute outside the collision's attribute set raises AttributeError. */
  lemma UnknownAttributeFails(c: Collision, name: string)
    requires name !in AttributeNames
    ensures GetAttr(c, name) == Failure(NoAttribute(name))
  {
  }
}

=== FILE: paths.dfy ===
/** The file-name test that decides which paths are read as collision archives. */
module Paths {

  /** `s.rfind(c)`: the last position of `c`, or -1. */
  function LastIndexOf(s: string, c: char): (r: int)
    ensures -1 <= r < |s|
    ensures r >= 0 ==> s[r] == c
    ensures forall k :: r < k < |s| ==> s[k] != c
  {
    if |s| == 0 then -1
    else if s[|s| - 1] == c then |s| - 1
    else LastIndexOf(s[..|s| - 1], c)
  }

  /**
   * `os.path.splitext(p)[-1]` on a POSIX path: from the last '.' of the last path component,
   * unless every character before that dot in the component is itself a dot.
   */
  function Extension(p: string): (ext: string)
    ensures ext == [] || (ext[0] == '.' && |ext| <= |p| && ext == p[|p| - |ext|..])
    ensures forall k :: 1 <= k < |ext| ==> ext[k] != '.' && ext[k] != '/'
  {
    var sep := LastIndexOf(p, '/');
    var dot := LastIndexOf(p, '.');
    if dot > sep && exists k :: sep + 1 <= k < dot && p[k] != '.' then p[dot..] else ""
  }

  /**
   * The archive test in plain terms: the path ends in ".tgz", and the last path component has
   * a character other than '.' before that ending.
   */
  ghost predicate EndsInArchiveName(p: string)
  {
    |p| >= 4 && p[|p| - 4..] == ".tgz"
    && exists k :: 0 <= k < |p| - 4 && p[k] != '.' && p[k] != '/' && forall j :: k < j < |p| ==> p[j] != '/'
  }

  /** Every path whose extension is ".tgz" ends in an archive name. */
  lemma ArchiveOnlyIf(p: string)
    requires Extension(p) == ".tgz"
    ensures EndsInArchiveName(p)
  {
    var sep := LastIndexOf(p, '/');
    var dot := LastIndexOf(p, '.');
    assert p[|p| - 4..] == ".tgz";
    assert dot == |p| - 4;
    var k :| sep + 1 <= k < dot && p[k] != '.';
    assert forall j :: k < j < |p| ==> p[j] != '/';
  }

  /** Every path that ends in an archive name has the extension ".tgz". */
  lemma ArchiveIf(p: string)
    requires EndsInArchiveName(p)
    ensures Extension(p) == ".tgz"
  {
    var sep := LastIndexOf(p, '/');
    var dot := LastIndexOf(p, '.');
    var k :| 0 <= k < |p| - 4 && p[k] != '.' && p[k] != '/' && forall j :: k < j < |p| ==> p[j] != '/';
    assert p[|p| - 4] == '.';
    assert forall j :: |p| - 4 < j < |p| ==> p[j] == p[|p| - 4..][j - (|p| - 4)];
    assert dot == |p| - 4;
    assert sep < k;
    assert p[dot..] == ".tgz";
  }

  /** The extension is ".tgz" exactly when the path ends in an archive name. */
  lemma ArchiveIff(p: string)
    ensures Extension(p) == ".tgz" <==> EndsInArchiveName(p)
  {
    if Extension(p) == ".tgz" {
      ArchiveOnlyIf(p);
    }
    if EndsInArchiveName(p) {
      ArchiveIf(p);
    }
  }

  /**
   * The test `from_file` and `from_dir` apply, `os.path.splitext(p)[-1] == '.tgz'`: it holds
   * exactly for the paths that end in an archive name.
   */
  predicate IsArchive(p: string): (b: bool)
    ensures b <==> EndsInArchiveName(p)
  {
    ArchiveIff(p);
    Extension(p) == ".tgz"
  }

  /** Appending ".tgz" to a file stem makes an archive name. */
  lemma StemWithSuffixIsArchive(stem: string)
    requires |stem| > 0 && stem[|stem| - 1] != '/' && stem[|stem| - 1] != '.'
    ensures IsArchive(stem + ".tgz")
  {
    var p := stem + ".tgz";
    assert p[|p| - 4..] == ".tgz";
    assert p[|stem| - 1] == stem[|stem| - 1];
    assert forall j :: |stem| - 1 < j < |p| ==> p[j] != '/';
    ArchiveIf(p);
  }

  /** Names of another format, or in another letter case, are turned away. */
  lemma OtherFormatsRejected()
    ensures !IsArchive("data.zip")
    ensures !IsArchive("data.TGZ")
    ensures !IsArchive("data.tgz/")
  {
    assert "data.zip"[4..] != ".tgz" by {
      assert "data.zip"[4..][1] == 'z';
    }
    assert "data.TGZ"[4..] != ".tgz" by {
      assert "data.TGZ"[4..][1] == 'T';
    }
    assert "data.tgz/"[5..] != ".tgz" by {
      assert "data.tgz/"[5..][0] == 't';
    }
  }

  /** A name that is nothing but dots before ".tgz" is a hidden file, not an archive. */
  lemma HiddenFilesRejected()
    ensures !IsArchive(".tgz")
    ensures !IsArchive("resources/.tgz")
  {
    assert "resources/.tgz"[9] == '/';
    if IsArchive(".tgz") { ArchiveOnlyIf(".tgz"); }
    if IsArchive("resources/.tgz") { ArchiveOnlyIf("resources/.tgz"); }
  }

  /**
   * What a directory load reads: the contents of each path that `keep` accepts, one path after
   * another in the order given.
   */
  function Gather<R>(paths: seq<string>, keep: string -> bool, read: string -> seq<R>): seq<R>
  {
    if |paths| == 0 then []
    else
      var last := paths[|paths| - 1];
      Gather(paths[..|paths| - 1], keep, read) + (if keep(last) then read(last) else [])
  }

  /** Gathering a list of paths is gathering its first part and then the rest. */
  lemma {:induction false} GatherSplit<R>(paths: seq<string>, n: nat, keep: string -> bool, read: string -> seq<R>)
    requires n <= |paths|
    ensures Gather(paths, keep, read) == Gather(paths[..n], keep, read) + Gather(paths[n..], keep, read)
  {
    if n == |paths| {
      assert paths[..n] == paths;
      assert paths[n..] == [];
    } else {
      var m := |paths| - 1;
      var tail := paths[n..];
      assert tail[..|tail| - 1] == paths[..m][n..];
      assert tail[|tail| - 1] == paths[m];
      GatherSplit(paths[..m], n, keep, read);
      assert paths[..m][..n] == paths[..n];
    }
  }

  /** One more path adds its contents, if it is kept, after those of the paths before it. */
  lemma GatherAppend<R>(paths: seq<string>, p: string, keep: string -> bool, read: string -> seq<R>)
    ensures Gather(paths + [p], keep, read) == Gather(paths, keep, read) + (if keep(p) then read(p) else [])
  {
    assert (paths + [p])[..|paths|] == paths;
  }

  /** The contents gathered around one kept path: those before it, its own, those after it. */
  lemma GatherAround<R>(paths: seq<string>, i: nat, keep: string -> bool, read: string -> seq<R>)
    requires i < |paths| && keep(paths[i])
    ensures Gather(paths, keep, read) == Gather(paths[..i], keep, read) + read(paths[i]) + Gather(paths[i + 1..], keep, read)
  {
    assert paths[..i + 1] == paths[..i] + [paths[i]];
    GatherAppend(paths[..i], paths[i], keep, read);
    GatherSplit(paths, i + 1, keep, read);
  }

  /** A path that is not kept contributes nothing: leaving it out changes no gathered content. */
  lemma GatherSkips<R>(a: seq<string>, p: string, b: seq<string>, keep: string -> bool, read: string -> seq<R>)
    requires !keep(p)
    ensures Gather(a + [p] + b, keep, read) == Gather(a + b, keep, read)
  {
    var with, without := a + [p] + b, a + b;
    assert with[..|a| + 1] == a + [p] && with[|a| + 1..] == b;
    assert without[..|a|] == a && without[|a|..] == b;
    GatherSplit(with, |a| + 1, keep, read);
    GatherSplit(without, |a|, keep, read);
    GatherAppend(a, p, keep, read);
  }

  /** When no path is kept, nothing is gathered. */
  lemma {:induction false} GatherNoneKept<R>(paths: seq<string>, keep: string -> bool, read: string -> seq<R>)
    requires forall i :: 0 <= i < |paths| ==> !keep(paths[i])
    ensures Gather(paths, keep, read) == []
  {
    if |paths| > 0 {
      var n := |paths| - 1;
      assert forall i :: 0 <= i < n ==> paths[..n][i] == paths[i];
      GatherNoneKept(paths[..n], keep, read);
    }
  }
}

=== FILE: values.dfy ===
/** Cell values, records, failures and the Python `str()` rendering of a cell. */
module Values {

  /** One decoded cell: text, an integer, or `None`. */
  datatype Value = Str(s: string) | Int(i: int) | Null

  /** A record's backing store: field name to raw cell value. */
  type Record = map<string, Value>

  /** The exceptions the package lets escape, one constructor per kind. */
  datatype Error =
    | MissingField(name: string)    // KeyError from a dict lookup
    | NoAttribute(name: string)     // AttributeError from getattr
    | UnsupportedFormat             // the bare Exception for a path that is not a .tgz archive
    | UnsupportedShape              // NotImplementedError for an input of the wrong type
    | BadTimestamp(text: string)    // ValueError from strptime
    | IndexOutOfRange(index: int)   // IndexError from list indexing
    | DuplicateArgument(name: string) // TypeError: a keyword clashes with a named parameter
    | NormaliserFailed(reason: string) // whatever the raw-record normaliser raises

  /** The outcome of an operation that may raise. */
  datatype Result<+T> = Success(value: T) | Failure(error: Error) {
    predicate IsFailure() { Failure? }

    function PropagateFailure<U>(): Result<U>
      requires Failure?
    {
      Failure(error)
    }

    function Extract(): T
      requires Success?
    {
      value
    }
  }

  datatype Option<+T> = None | Some(value: T) {
    predicate IsFailure() { None? }

    function PropagateFailure<U>(): Option<U>
      requires None?
    {
      None
    }

    function Extract(): T
      requires Some?
    {
      value
    }
  }

  /** `d[key]`: the value, or a KeyError naming the key. */
  function Lookup(d: Record, key: string): (r: Result<Value>)
    ensures r.Success? <==> key in d
    ensures r.Success? ==> r.value == d[key]
    ensures r.Failure? ==> r.error == MissingField(key)
  {
    if key in d then Success(d[key]) else Failure(MissingField(key))
  }

  /** `d` restricted to the keys in `keys`. */
  function Restrict(d: Record, keys: set<string>): (r: Record)
    ensures r.Keys == d.Keys * keys
    ensures forall k :: k in r ==> r[k] == d[k]
  {
    map k | k in d && k in keys :: d[k]
  }

  /** No key occurs twice. */
  predicate Distinct(keys: seq<string>)
  {
    forall i, j :: 0 <= i < j < |keys| ==> keys[i] != keys[j]
  }

  /**
   * `[f(x) for x in xs]` where `f` may raise: the results in order, or the error of the first
   * element that fails, since nothing after it is evaluated.
   */
  function MapEach<A, B>(f: A -> Result<B>, xs: seq<A>): (r: Result<seq<B>>)
    ensures r.Success? <==> forall i :: 0 <= i < |xs| ==> f(xs[i]).Success?
    ensures r.Success? ==> |r.value| == |xs| && forall i :: 0 <= i < |xs| ==> f(xs[i]) == Success(r.value[i])
    ensures r.Failure? ==> exists i :: FirstFailure(f, xs, i) && r.error == f(xs[i]).error
  {
    if |xs| == 0 then Success([])
    else
      var first :- f(xs[0]);
      var rest :- MapEach(f, xs[1..]);
      assert forall i :: 1 <= i < |xs| ==> xs[1..][i - 1] == xs[i];
      Success([first] + rest)
  }

  /** Mapping over `a + b` maps `a` and then `b`; a failure in `a` is the one that escapes. */
  lemma {:induction false} MapEachConcat<A, B>(f: A -> Result<B>, a: seq<A>, b: seq<A>)
    ensures MapEach(f, a + b) ==
      if MapEach(f, a).Failure? then MapEach(f, a)
      else if MapEach(f, b).Failure? then MapEach(f, b)
      else Success(MapEach(f, a).value + MapEach(f, b).value)
  {
    if |a| == 0 {
      assert a + b == b;
      assert MapEach(f, a) == Success([]);
      if MapEach(f, b).Success? {
        assert [] + MapEach(f, b).value == MapEach(f, b).value;
      }
    } else {
      assert (a + b)[0] == a[0];
      assert (a + b)[1..] == a[1..] + b;
      MapEachConcat(f, a[1..], b);
      if f(a[0]).Success? && MapEach(f, a[1..]).Success? && MapEach(f, b).Success? {
        var x, y, z := f(a[0]).value, MapEach(f, a[1..]).value, MapEach(f, b).value;
        assert [x] + (y + z) == ([x] + y) + z;
      }
    }
  }

  /** A failure in the middle part, after a prefix that succeeds, is the one that escapes. */
  lemma MapEachStopsAt<A, B>(f: A -> Result<B>, done: seq<A>, part: seq<A>, rest: seq<A>)
    requires MapEach(f, done).Success? && MapEach(f, part).Failure?
    ensures MapEach(f, done + part + rest) == MapEach(f, part)
  {
    MapEachConcat(f, done, part);
    MapEachConcat(f, done + part, rest);
  }

  /** Once a prefix fails, the whole sequence fails with the same error. */
  lemma MapEachPrefixFailure<A, B>(f: A -> Result<B>, xs: seq<A>, n: nat)
    requires n <= |xs| && MapEach(f, xs[..n]).Failure?
    ensures MapEach(f, xs) == MapEach(f, xs[..n])
  {
    assert xs == xs[..n] + xs[n..];
    MapEachConcat(f, xs[..n], xs[n..]);
  }

  /** One more element: its outcome follows the outcomes of the elements before it. */
  lemma MapEachSnoc<A, B>(f: A -> Result<B>, xs: seq<A>, x: A)
    requires MapEach(f, xs).Success?
    ensures MapEach(f, xs + [x]) == if f(x).Failure? then Failure(f(x).error) else Success(MapEach(f, xs).value + [f(x).value])
  {
    MapEachConcat(f, xs, [x]);
    assert [x][0] == x && [x][1..] == [];
    assert MapEach(f, [x][1..]) == Success([]);
    if f(x).Success? {
      assert [f(x).value] + [] == [f(x).value];
      assert MapEach(f, [x]) == Success([f(x).value]);
    }
  }

  /** `xs[i]` is the first element on which `f` fails. */
  predicate FirstFailure<A, B>(f: A -> Result<B>, xs: seq<A>, i: int)
  {
    0 <= i < |xs| && f(xs[i]).Failure? && forall j :: 0 <= j < i ==> f(xs[j]).Success?
  }

  /** There is only one first failure. */
  lemma FirstFailureUnique<A, B>(f: A -> Result<B>, xs: seq<A>, i: int, j: int)
    requires FirstFailure(f, xs, i) && FirstFailure(f, xs, j)
    ensures i == j
  {
  }

  /**
   * `[x for x in xs if test(x)]` where the test may raise: the elements that pass, in order,
   * or the error of the first element whose test raises.
   */
  function Select<T>(xs: seq<T>, test: T -> Result<bool>): (r: Result<seq<T>>)
    ensures r.Success? <==> forall i :: 0 <= i < |xs| ==> test(xs[i]).Success?
    ensures r.Success? ==> |r.value| <= |xs|
    ensures r.Success? ==> forall j :: 0 <= j < |r.value| ==> test(r.value[j]) == Success(true)
    ensures r.Failure? ==> exists i :: FirstFailure(test, xs, i) && r.error == test(xs[i]).error
  {
    if |xs| == 0 then Success([])
    else
      var n := |xs| - 1;
      var kept := Select(xs[..n], test);
      assert forall i :: 0 <= i < n ==> xs[..n][i] == xs[i];
      if kept.Failure? then
        Failure(kept.error)
      else
        var keep := test(xs[n]);
        if keep.Failure? then
          assert FirstFailure(test, xs, n);
          Failure(keep.error)
        else
          Success(if keep.value then kept.value + [xs[n]] else kept.value)
  }

  /**
   * `idx` lists, in increasing order, the positions of `xs` that pass the test, and every
   * passing position is listed.
   */
  ghost predicate PassingPositions<T>(xs: seq<T>, test: T -> Result<bool>, idx: seq<int>)
  {
    (forall j :: 0 <= j < |idx| ==> 0 <= idx[j] < |xs| && test(xs[idx[j]]) == Success(true))
    && (forall j, k :: 0 <= j < k < |idx| ==> idx[j] < idx[k])
    && (forall i :: 0 <= i < |xs| && test(xs[i]) == Success(true) ==> exists j :: 0 <= j < |idx| && idx[j] == i)
  }

  /** A passing last element extends the prefix's positions by its own. */
  lemma PositionsExtend<T>(xs: seq<T>, test: T -> Result<bool>, idx: seq<int>)
    requires |xs| > 0 && PassingPositions(xs[..|xs| - 1], test, idx)
    requires test(xs[|xs| - 1]) == Success(true)
    ensures PassingPositions(xs, test, idx + [|xs| - 1])
  {
    var n := |xs| - 1;
    var idx' := idx + [n];
    assert forall i :: 0 <= i < n ==> xs[..n][i] == xs[i];
    assert idx'[|idx|] == n;
    assert forall j :: 0 <= j < |idx| ==> idx'[j] == idx[j];
  }

  /** A last element that does not pass leaves the prefix's positions as they are. */
  lemma PositionsSkip<T>(xs: seq<T>, test: T -> Result<bool>, idx: seq<int>)
    requires |xs| > 0 && PassingPositions(xs[..|xs| - 1], test, idx)
    requires test(xs[|xs| - 1]) != Success(true)
    ensures PassingPositions(xs, test, idx)
  {
    var n := |xs| - 1;
    assert forall i :: 0 <= i < n ==> xs[..n][i] == xs[i];
  }

  /** One step of `Select`: positions for the prefix extend to positions for the whole. */
  lemma PositionsStep<T>(xs: seq<T>, test: T -> Result<bool>, kept: seq<T>, idx: seq<int>)
    requires |xs| > 0 && PassingPositions(xs[..|xs| - 1], test, idx)
    requires |idx| == |kept| && forall j :: 0 <= j < |idx| ==> kept[j] == xs[..|xs| - 1][idx[j]]
    ensures var n := |xs| - 1;
      var r := if test(xs[n]) == Success(true) then kept + [xs[n]] else kept;
      exists idx' :: (PassingPositions(xs, test, idx') && |idx'| == |r|
                      && forall j :: 0 <= j < |idx'| ==> r[j] == xs[idx'[j]])
  {
    var n := |xs| - 1;
    assert forall j :: 0 <= j < |idx| ==> idx[j] < n && kept[j] == xs[idx[j]];
    if test(xs[n]) == Success(true) {
      PositionsExtend(xs, test, idx);
      var idx', r := idx + [n], kept + [xs[n]];
      assert forall j :: 0 <= j < |idx'| ==> r[j] == xs[idx'[j]];
    } else {
      PositionsSkip(xs, test, idx);
    }
  }

  /** What `Select` keeps is exactly the passing elements, picked at increasing positions. */
  lemma {:induction false} SelectExact<T>(xs: seq<T>, test: T -> Result<bool>)
    requires Select(xs, test).Success?
    ensures exists idx :: (PassingPositions(xs, test, idx)
      && |idx| == |Select(xs, test).value|
      && forall j :: 0 <= j < |idx| ==> Select(xs, test).value[j] == xs[idx[j]])
  {
    if |xs| == 0 {
      assert PassingPositions(xs, test, []);
    } else {
      var n := |xs| - 1;
      var kept := Select(xs[..n], test).value;
      SelectExact(xs[..n], test);
      var idx :| PassingPositions(xs[..n], test, idx)
        && |idx| == |kept| && forall j :: 0 <= j < |idx| ==> kept[j] == xs[..n][idx[j]];
      assert Select(xs, test).value == if test(xs[n]) == Success(true) then kept + [xs[n]] else kept;
      PositionsStep(xs, test, kept, idx);
    }
  }

  /** When every element passes, `Select` keeps them all. */
  lemma {:induction false} SelectKeepsAll<T>(xs: seq<T>, test: T -> Result<bool>)
    requires forall i :: 0 <= i < |xs| ==> test(xs[i]) == Success(true)
    ensures Select(xs, test) == Success(xs)
  {
    if |xs| > 0 {
      var n := |xs| - 1;
      var prefix := xs[..n];
      assert forall i :: 0 <= i < |prefix| ==> test(prefix[i]) == Success(true) by {
        assert forall i :: 0 <= i < |prefix| ==> prefix[i] == xs[i];
      }
      SelectKeepsAll(prefix, test);
      assert test(xs[n]) == Success(true);
      assert prefix + [xs[n]] == xs;
    }
  }

  /**
   * `d[keys[0]], d[keys[1]], ...` evaluated left to right: every value, or the KeyError of the
   * first key that is missing.
   */
  function LookupAll(d: Record, keys: seq<string>): (r: Result<seq<Value>>)
    ensures r.Success? <==> forall i :: 0 <= i < |keys| ==> keys[i] in d
    ensures r.Success? ==> |r.value| == |keys| && forall i :: 0 <= i < |keys| ==> r.value[i] == d[keys[i]]
    ensures r.Failure? ==>
      exists i :: (0 <= i < |keys| && keys[i] !in d && r.error == MissingField(keys[i])
                   && forall j :: 0 <= j < i ==> keys[j] in d)
  {
    MapEach(k => Lookup(d, k), keys)
  }

  /** Reading the same keys from two dicts that agree on them gives the same outcome. */
  lemma LookupAllAgree(d: Record, e: Record, keys: seq<string>)
    requires forall k :: k in keys ==> (k in d <==> k in e)
    requires forall k :: k in keys && k in d ==> d[k] == e[k]
    ensures LookupAll(d, keys) == LookupAll(e, keys)
  {
    var r, q := LookupAll(d, keys), LookupAll(e, keys);
    if r.Success? {
      assert r.value == q.value;
    } else {
      var i :| FirstFailure(k => Lookup(d, k), keys, i) && r.error == MissingField(keys[i]);
      var j :| FirstFailure(k => Lookup(e, k), keys, j) && q.error == MissingField(keys[j]);
      assert FirstFailure(k => Lookup(d, k), keys, j);
      FirstFailureUnique(k => Lookup(d, k), keys, i, j);
    }
  }

  /**
   * The dict display `{keys[0]: vals[0], keys[1]: vals[1], ...}`: every key is present, and
   * with no key written twice each one holds the value written beside it.
   */
  function DictDisplay(keys: seq<string>, vals: seq<Value>): (r: Record)
    requires |keys| == |vals|
    ensures forall k :: k in r <==> k in keys
    ensures Distinct(keys) ==> forall i :: 0 <= i < |keys| ==> r[keys[i]] == vals[i]
  {
    if |keys| == 0 then map[]
    else
      var n := |keys| - 1;
      var earlier := DictDisplay(keys[..n], vals[..n]);
      assert forall i :: 0 <= i < n ==> keys[..n][i] == keys[i] && vals[..n][i] == vals[i];
      assert forall k :: k in keys <==> k in keys[..n] || k == keys[n];
      assert Distinct(keys) ==> Distinct(keys[..n]) && keys[n] !in keys[..n];
      earlier[keys[n] := vals[n]]
  }

  /** A map whose keys are the listed names plus some extra ones has no other key. */
  lemma OnlyListedKeys(m: Record, names: seq<string>, extra: set<string>, k: string)
    requires m.Keys == (set n | n in names) + extra
    requires k !in names && k !in extra
    ensures k !in m
  {
  }

  /** Displaying values looked up under some keys of `d` has the keys `d` keeps when cut down to them. */
  lemma DisplayOfLookupsKeys(d: Record, keys: seq<string>, vals: seq<Value>)
    requires |vals| == |keys|
    requires forall i :: 0 <= i < |keys| ==> keys[i] in d
    ensures DictDisplay(keys, vals).Keys == Restrict(d, set k | k in keys).Keys
  {
    var r := DictDisplay(keys, vals);
    forall k | k in keys
      ensures k in d
    {
      var i :| 0 <= i < |keys| && keys[i] == k;
    }
  }

  /** Displaying values looked up under distinct keys gives each key the dict's value. */
  lemma DisplayOfLookupsValues(d: Record, keys: seq<string>, vals: seq<Value>)
    requires Distinct(keys) && |vals| == |keys|
    requires forall i :: 0 <= i < |keys| ==> keys[i] in d && vals[i] == d[keys[i]]
    ensures forall k :: k in DictDisplay(keys, vals) ==> k in d && DictDisplay(keys, vals)[k] == d[k]
  {
    var r := DictDisplay(keys, vals);
    forall k | k in r
      ensures k in d && r[k] == d[k]
    {
      var i :| 0 <= i < |keys| && keys[i] == k;
      assert r[keys[i]] == vals[i];
    }
  }

  /** Displaying values looked up under distinct keys rebuilds the dict cut down to those keys. */
  lemma DisplayOfLookups(d: Record, keys: seq<string>, vals: seq<Value>)
    requires Distinct(keys) && |vals| == |keys|
    requires forall i :: 0 <= i < |keys| ==> keys[i] in d && vals[i] == d[keys[i]]
    ensures DictDisplay(keys, vals) == Restrict(d, set k | k in keys)
  {
    DisplayOfLookupsKeys(d, keys, vals);
    DisplayOfLookupsValues(d, keys, vals);
  }

  predicate IsDigit(c: char) { '0' <= c <= '9' }

  function DigitChar(n: nat): (c: char)
    requires n < 10
    ensures IsDigit(c)
  {
    ('0' as int + n) as char
  }

  /** The shortest decimal spelling of `n`. */
  function Decimal(n: nat): (r: string)
    ensures |r| > 0 && forall k :: 0 <= k < |r| ==> IsDigit(r[k])
  {
    if n < 10 then [DigitChar(n)] else Decimal(n / 10) + [DigitChar(n % 10)]
  }

  /**
   * Python's `str()` of a cell, as an f-string uses it: text as it is, `None` as "None", and an
   * integer as its shortest decimal digits after a '-' when negative.
   */
  function Render(v: Value): (s: string)
    ensures v.Str? ==> s == v.s
    ensures v.Null? ==> s == "None"
    ensures v.Int? ==> |s| > 0 && (s[0] == '-' <==> v.i < 0)
    ensures v.Int? && v.i >= 0 ==> s == Decimal(v.i)
    ensures v.Int? && v.i < 0 ==> s == "-" + Decimal(-v.i)
  {
    match v
    case Str(s) => s
    case Int(i) => if i < 0 then "-" + Decimal(-i) else Decimal(i)
    case Null => "None"
  }
}

=== FILE: vehicle_list.dfy ===
/** The vehicles of a collision: an ordered container and the parser that fills it. */
module VehicleList {
  import opened Values
  import VehicleRecord

  type Vehicle = VehicleRecord.Vehicle

  /** What `Vehicles.parse` may be handed: a dict, a list, or anything else. */
  datatype Payload = Dict(d: Record) | List(elems: seq<Payload>) | Other(v: Value)

  /** A `Vehicles` collection: its list of vehicles, in order. */
  datatype Vehicles = Vehicles(items: seq<Vehicle>) {

    /** `len(vehicles)`: the indices that resolve are exactly -len .. len - 1. */
    function Len(): (n: nat)
      ensures forall i :: At(i).Success? <==> -(n as int) <= i < n
    {
      |items|
    }

    /**
     * `vehicles[i]`: the vehicle at `i`, a negative index counting back from the end;
     * anything else raises.
     */
    function At(i: int): (r: Result<Vehicle>)
      ensures r.Success? <==> -|items| <= i < |items|
      ensures r.Success? ==> r.value == items[if i < 0 then |items| + i else i]
      ensures r.Failure? ==> r.error == IndexOutOfRange(i)
    {
      if 0 <= i < |items| then Success(items[i])
      else if -|items| <= i < 0 then Success(items[|items| + i])
      else Failure(IndexOutOfRange(i))
    }

    /** `append(v)`: one more vehicle, at the end; every earlier index keeps its vehicle. */
    function Append(v: Vehicle): (r: Vehicles)
      ensures r.Len() == Len() + 1
      ensures r.At(Len()) == Success(v) && r.At(-1) == Success(v)
      ensures forall i :: 0 <= i < Len() ==> r.At(i) == At(i)
    {
      Vehicles(items + [v])
    }

    /** `extend(vs)`: the new vehicles after the old ones, in their order. */
    function Extend(vs: seq<Vehicle>): (r: Vehicles)
      ensures r.Len() == Len() + |vs|
      ensures forall i :: 0 <= i < Len() ==> r.At(i) == At(i)
      ensures forall j :: 0 <= j < |vs| ==> r.At(Len() + j) == Success(vs[j])
    {
      Vehicles(items + vs)
    }

    /** `serialize`: each vehicle's own serialization, position by position. */
    function Serialize(): (r: seq<Record>)
      ensures |r| == Len()
      ensures forall i :: 0 <= i < Len() ==> r[i] == VehicleRecord.Serialize(items[i])
    {
      seq(|items|, i requires 0 <= i < |items| => VehicleRecord.Serialize(items[i]))
    }
  }

  /** A negative index names the same vehicle as that index plus the length. */
  lemma NegativeIndex(vs: Vehicles, i: int)
    requires -(vs.Len() as int) <= i < 0
    ensures vs.At(i) == vs.At(i + vs.Len())
  {
  }

  /** Extending one vehicle at a time is appending it. */
  lemma {:induction false} ExtendIsAppends(vs: Vehicles, xs: seq<Vehicle>, x: Vehicle)
    ensures vs.Extend(xs + [x]) == vs.Extend(xs).Append(x)
  {
    assert vs.items + (xs + [x]) == (vs.items + xs) + [x];
  }

  /** One element of a list: a dict becomes a vehicle, anything else is not supported. */
  function Element(p: Payload): (r: Result<Vehicle>)
    ensures !p.Dict? ==> r == Failure(UnsupportedShape)
    ensures p.Dict? ==> r == VehicleRecord.FromMap(p.d)
  {
    if p.Dict? then VehicleRecord.FromMap(p.d) else Failure(UnsupportedShape)
  }

  /**
   * `Vehicles.parse`: a list gives one vehicle per element, in order, stopping at the first
   * element that is not a dict or lacks a slot; a dict gives a single vehicle; anything else
   * raises NotImplementedError.
   */
  function Parse(p: Payload): (r: Result<Vehicles>)
    ensures p.Other? ==> r == Failure(UnsupportedShape)
    ensures p.Dict? ==> (r.Success? <==> VehicleRecord.FromMap(p.d).Success?)
    ensures p.Dict? && r.Success? ==> r.value.items == [VehicleRecord.FromMap(p.d).value]
    ensures p.Dict? && r.Failure? ==> r.error == VehicleRecord.FromMap(p.d).error
    ensures p.List? ==> (r.Success? <==> forall i :: 0 <= i < |p.elems| ==> Element(p.elems[i]).Success?)
    ensures p.List? && r.Success? ==>
      r.value.Len() == |p.elems|
      && forall i :: 0 <= i < |p.elems| ==> Element(p.elems[i]) == r.value.At(i)
    ensures p.List? && r.Failure? ==>
      exists i :: FirstFailure(Element, p.elems, i) && r.error == Element(p.elems[i]).error
  {
    match p
    case List(elems) =>
      var vs :- MapEach(Element, elems);
      Success(Vehicles(vs))
    case Dict(d) =>
      var v :- VehicleRecord.FromMap(d);
      Success(Vehicles([v]))
    case Other(_) => Failure(UnsupportedShape)
  }

  /** A list with an element that is not a dict is refused, whatever the other elements are. */
  lemma NonDictElementRejected(elems: seq<Payload>, i: int)
    requires 0 <= i < |elems| && !elems[i].Dict?
    ensures Parse(List(elems)).Failure?
  {
    assert Element(elems[i]).Failure?;
  }

  /** A serialized vehicle, as a list element, reads back as that vehicle. */
  lemma ElementOfSerialized(v: Vehicle)
    ensures Element(Dict(VehicleRecord.Serialize(v))) == Success(v)
  {
    VehicleRecord.FromSerialized(v);
  }

  /** The list of dicts a collection serializes to parses back to the same collection. */
  lemma ParseSerialized(vs: Vehicles)
    ensures Parse(List(seq(vs.Len(), i requires 0 <= i < vs.Len() => Dict(vs.Serialize()[i])))) == Success(vs)
  {
    var elems := seq(vs.Len(), i requires 0 <= i < vs.Len() => Dict(vs.Serialize()[i]));
    forall i | 0 <= i < |elems|
      ensures Element(elems[i]) == Success(vs.items[i])
    {
      assert elems[i] == Dict(vs.Serialize()[i]);
      assert vs.Serialize()[i] == VehicleRecord.Serialize(vs.items[i]);
      ElementOfSerialized(vs.items[i]);
    }
    var m := MapEach(Element, elems);
    assert m.Success?;
    assert forall i :: 0 <= i < |elems| ==> m.value[i] == vs.items[i];
    assert m.value == vs.items;
    assert Parse(List(elems)) == Success(Vehicles(m.value));
  }
}

=== FILE: vehicle_record.dfy ===
/** One vehicle involved in a collision: a fixed record of 24 fields. */
module VehicleRecord {
  import opened Values

  /** A vehicle: one value per slot. */
  datatype Vehicle = Vehicle(
    ageBandOfDriver: Value,
    ageOfDriver: Value,
    ageOfVehicle: Value,
    driverHomeAreaType: Value,
    driverImdDecile: Value,
    engineCapacityCc: Value,
    firstPointOfImpact: Value,
    genericMakeModel: Value,
    hitObjectInCarriageway: Value,
    hitObjectOffCarriageway: Value,
    journeyPurposeOfDriver: Value,
    junctionLocation: Value,
    propulsionCode: Value,
    sexOfDriver: Value,
    skiddingAndOverturning: Value,
    towingAndArticulation: Value,
    vehicleDirectionFrom: Value,
    vehicleDirectionTo: Value,
    vehicleLeavingCarriageway: Value,
    vehicleLeftHandDrive: Value,
    vehicleLocationRestrictedLane: Value,
    vehicleManoeuvre: Value,
    vehicleReference: Value,
    vehicleType: Value)

  /** The slot names, in declaration order; the constructor reads them in this order too. */
  const Slots: seq<string> :=
    [
      "age_band_of_driver", "age_of_driver", "age_of_vehicle", "driver_home_area_type",
      "driver_imd_decile", "engine_capacity_cc", "first_point_of_impact", "generic_make_model",
      "hit_object_in_carriageway", "hit_object_off_carriageway", "journey_purpose_of_driver", "junction_location",
      "propulsion_code", "sex_of_driver", "skidding_and_overturning", "towing_and_articulation",
      "vehicle_direction_from", "vehicle_direction_to", "vehicle_leaving_carriageway", "vehicle_left_hand_drive",
      "vehicle_location_restricted_lane", "vehicle_manoeuvre", "vehicle_reference", "vehicle_type"
    ]

  /** The slot names as a set. */
  const SlotKeys: set<string> := set n | n in Slots

  /**
   * The position of a slot name in `Slots`, recognised from its length, its first letter and,
   * for the two 17-letter names starting with 'v', its ninth letter. Other names may land on
   * any position; only slot names are read back. It exists only to prove `Distinct(Slots)`
   * cheaply: a name read back at two positions would have to be two different names.
   */
  function SlotIndex(s: string): int
  {
    if |s| == 18 && s[0] == 'a' then 0
    else if |s| == 13 && s[0] == 'a' then 1
    else if |s| == 14 && s[0] == 'a' then 2
    else if |s| == 21 && s[0] == 'd' then 3
    else if |s| == 17 && s[0] == 'd' then 4
    else if |s| == 18 && s[0] == 'e' then 5
    else if |s| == 21 && s[0] == 'f' then 6
    else if |s| == 18 && s[0] == 'g' then 7
    else if |s| == 25 && s[0] == 'h' then 8
    else if |s| == 26 && s[0] == 'h' then 9
    else if |s| == 25 && s[0] == 'j' then 10
    else if |s| == 17 && s[0] == 'j' then 11
    else if |s| == 15 && s[0] == 'p' then 12
    else if |s| == 13 && s[0] == 's' then 13
    else if |s| == 24 && s[0] == 's' then 14
    else if |s| == 23 && s[0] == 't' then 15
    else if |s| == 22 && s[0] == 'v' then 16
    else if |s| == 20 && s[0] == 'v' then 17
    else if |s| == 27 && s[0] == 'v' then 18
    else if |s| == 23 && s[0] == 'v' then 19
    else if |s| == 32 && s[0] == 'v' then 20
    else if |s| == 17 && s[0] == 'v' && s[8] == 'm' then 21
    else if |s| == 17 && s[0] == 'v' && s[8] == 'r' then 22
    else if |s| == 12 && s[0] == 'v' then 23
    else -1
  }

  /** The 24 slot names are distinct: each is recognised back at its own position. */
  lemma SlotsDistinct()
    ensures |Slots| == 24 && Distinct(Slots)
  {
    assert forall i :: 0 <= i < |Slots| ==> SlotIndex(Slots[i]) == i;
  }

  /** `self` is not a slot: the constructor binds it to the new instance. */
  lemma SelfIsNotASlot()
    ensures "self" !in Slots && "self" !in SlotKeys
  {
  }

  /** The fields of `v`, in slot order. */
  function Fields(v: Vehicle): (r: seq<Value>)
    ensures |r| == 24
  {
    [
      v.ageBandOfDriver, v.ageOfDriver, v.ageOfVehicle, v.driverHomeAreaType,
      v.driverImdDecile, v.engineCapacityCc, v.firstPointOfImpact, v.genericMakeModel,
      v.hitObjectInCarriageway, v.hitObjectOffCarriageway, v.journeyPurposeOfDriver, v.junctionLocation,
      v.propulsionCode, v.sexOfDriver, v.skiddingAndOverturning, v.towingAndArticulation,
      v.vehicleDirectionFrom, v.vehicleDirectionTo, v.vehicleLeavingCarriageway, v.vehicleLeftHandDrive,
      v.vehicleLocationRestrictedLane, v.vehicleManoeuvre, v.vehicleReference, v.vehicleType
    ]
  }

  /** The vehicle whose fields, in slot order, are `vs`. */
  function Build(vs: seq<Value>): (v: Vehicle)
    requires |vs| == 24
    ensures Fields(v) == vs
  {
    Vehicle(
      vs[0], vs[1], vs[2], vs[3],
      vs[4], vs[5], vs[6], vs[7],
      vs[8], vs[9], vs[10], vs[11],
      vs[12], vs[13], vs[14], vs[15],
      vs[16], vs[17], vs[18], vs[19],
      vs[20], vs[21], vs[22], vs[23])
  }

  /**
   * `Vehicle(**d)` with the slots read in the order `slots` lists them. A key `self` clashes
   * with the instance parameter of `__init__(self, *args, **kwargs)`, so the call raises a
   * TypeError before the body runs; otherwise the first missing slot is the KeyError that
   * escapes, and any other key outside the list is never read.
   */
  function FromMapOver(d: Record, slots: seq<string>): (r: Result<Vehicle>)
    requires |slots| == 24
    ensures "self" in d ==> r == Failure(DuplicateArgument("self"))
    ensures r.Success? <==> "self" !in d && (set n | n in slots) <= d.Keys
    ensures r.Success? <==> "self" !in d && forall i :: 0 <= i < |slots| ==> slots[i] in d
    ensures r.Success? ==> forall i :: 0 <= i < |slots| ==> Fields(r.value)[i] == d[slots[i]]
    ensures r.Failure? && "self" !in d ==>
      exists i :: (0 <= i < |slots| && slots[i] !in d && r.error == MissingField(slots[i])
                   && forall j :: 0 <= j < i ==> slots[j] in d)
  {
    assert (set n | n in slots) <= d.Keys <==> forall i :: 0 <= i < |slots| ==> slots[i] in d;
    if "self" in d then Failure(DuplicateArgument("self"))
    else
      var vs :- LookupAll(d, slots);
      Success(Build(vs))
  }

  /** `serialize` for a given slot list: the dict display of each field under its slot name. */
  function SerializeOver(v: Vehicle, slots: seq<string>): (r: Record)
    requires |slots| == 24 && Distinct(slots)
    ensures r.Keys == set n | n in slots
    ensures forall i :: 0 <= i < |slots| ==> slots[i] in r && r[slots[i]] == Fields(v)[i]
  {
    DictDisplay(slots, Fields(v))
  }

  /** Building from a serialization over the same slots gives the same vehicle back. */
  lemma FromSerializedOver(v: Vehicle, slots: seq<string>)
    requires |slots| == 24 && Distinct(slots) && "self" !in slots
    ensures FromMapOver(SerializeOver(v, slots), slots) == Success(v)
  {
    var m := SerializeOver(v, slots);
    assert "self" !in m;
    var r := FromMapOver(m, slots);
    assert r.Success?;
    assert Fields(r.value) == Fields(v);
  }

  /** Serializing what was built from `d` gives `d` cut down to the slots. */
  lemma SerializeFromMapOver(d: Record, slots: seq<string>)
    requires |slots| == 24 && Distinct(slots)
    requires FromMapOver(d, slots).Success?
    ensures SerializeOver(FromMapOver(d, slots).value, slots) == Restrict(d, set n | n in slots)
  {
    DisplayOfLookups(d, slots, Fields(FromMapOver(d, slots).value));
  }

  /** `Vehicle(**d)`: a `self` key is refused, then every slot is read in declaration order. */
  function FromMap(d: Record): (r: Result<Vehicle>)
    ensures "self" in d ==> r == Failure(DuplicateArgument("self"))
    ensures r.Success? <==> "self" !in d && SlotKeys <= d.Keys
    ensures r.Success? ==> forall i :: 0 <= i < |Slots| ==> Fields(r.value)[i] == d[Slots[i]]
    ensures r.Failure? && "self" !in d ==>
      exists i :: (0 <= i < |Slots| && Slots[i] !in d && r.error == MissingField(Slots[i])
                   && forall j :: 0 <= j < i ==> Slots[j] in d)
  {
    SlotsDistinct();
    FromMapOver(d, Slots)
  }

  /** `serialize`: every field under its slot name. */
  function Serialize(v: Vehicle): (r: Record)
    ensures r.Keys == SlotKeys
    ensures forall i :: 0 <= i < |Slots| ==> r[Slots[i]] == Fields(v)[i]
  {
    SlotsDistinct();
    SerializeOver(v, Slots)
  }

  /** Building a vehicle from its serialization gives the same vehicle back. */
  lemma FromSerialized(v: Vehicle)
    ensures FromMap(Serialize(v)) == Success(v)
  {
    SlotsDistinct();
    SelfIsNotASlot();
    FromSerializedOver(v, Slots);
  }

  /** Serializing a vehicle built from `d` gives `d` cut down to the slot names. */
  lemma SerializeFromMap(d: Record)
    requires FromMap(d).Success?
    ensures Serialize(FromMap(d).value) == Restrict(d, SlotKeys)
  {
    SlotsDistinct();
    SerializeFromMapOver(d, Slots);
  }

  /**
   * Keys outside the slot list play no part, except `self`, whose presence alone decides the
   * call: two dicts that agree on the slots and on having a `self` key build alike.
   */
  lemma ExtraKeysIgnored(d: Record, e: Record)
    requires forall k :: k in SlotKeys ==> (k in d <==> k in e)
    requires forall k :: k in SlotKeys && k in d ==> d[k] == e[k]
    requires "self" in d <==> "self" in e
    ensures FromMap(d) == FromMap(e)
  {
    LookupAllAgree(d, e, Slots);
  }
}
